=== FILE: README.md ===
# Document-management client: session, access control and screen state

This project models the logic of an Angular client for a document-ingestion and
question-answering backend. The logic is written as pure Dafny transition
functions over immutable state, and the properties the client relies on are
proved as lemmas. Every HTTP call becomes an explicit event that carries the
call's settled outcome (`Response<T>`: `Success(value)` or `Failure(error)`).
Each step runs to completion before the next event is handled.

The modules follow the client's structure:

- `Common`: shared types.
  - `Option`, `Response` and the user record.
  - The task-status object.
  - The few JavaScript values whose truthiness the client tests (`JsValue`, `Truthy`).
- `JsText`: the string functions the client relies on.
  - ECMAScript `trim()` with its whitespace set.
  - The decimal rendering of an integer that JavaScript uses for an object key.
- `Session` (`AuthService`): the stored access token and the current user.
  - Transitions: the two-step login pipeline, the current-user fetch, logout and start-up.
  - The login pipeline has one surprise. When the token arrives but the profile fetch fails, login still reports success, yet the session is logged out (`Session.LoginSucceedsButLoggedOut`).
- `Guards` (`roleGuard`): allow, or redirect to `/login`.
- `Routes` (the route table): the table as data and Angular's first-match lookup.
  - Guards combine with the first non-`true` result in `canActivate` order deciding.
  - The result is the access matrix: which role reaches which screen.
- `Polling`: the switch-latest discipline of `interval(5000).pipe(switchMap(...))`, as a generation counter.
  - Each tick issues the next tag and supersedes the request in flight.
  - Only a reply carrying the latest tag is passed on.
  - Unsubscribing stops everything.
  - An error reply ends the stream.
- `DocumentList`, `IngestionStatus`, `UserManagement`, `DocumentUpload`, `QaInterface`, `LoginForm`, `SignupForm`: one module per screen. Each has its state record and its transition on each event.
- `Seqs`: order-preserving filtering, used for deleting by id.
- `Scenarios`: whole-application runs that compose login, the login form and navigation.

## Model

| member | source | states |
|---|---|---|
| `Session.AuthHeader` | src/app/services/auth.service.ts:29-34 | the header is `Bearer ` followed by the stored token, or by `null` when none is stored |
| `Session.IsAuthenticated` | src/app/services/auth.service.ts:104-109 | the truthiness of the stored value holds exactly when a non-empty token is stored |
| `Session.Logout` | src/app/services/auth.service.ts:99-102 | after logout there is no token, no user and no role |
| `Session.LogoutIdempotent` | src/app/services/auth.service.ts:99-102 | logging out twice is the same as logging out once, and the result is consistent |
| `Session.CurrentRole` | src/app/services/auth.service.ts:143-152 | a role exists exactly when a user is current, and it is that user's role |
| `Session.Init` | src/app/services/auth.service.ts:127-137 | start-up keeps the stored token and has no user; it issues a user fetch exactly when the token authenticates |
| `Session.OnUserFetched` | src/app/services/auth.service.ts:111-125 | a fetched user becomes current and the token stays; a failed fetch is exactly `logout`: no token and no user |
| `Session.UserFetchedKeepsConsistent` | src/app/services/auth.service.ts:111-125 | a fetch that settles while the token still authenticates leaves the session consistent (a user only with a live token) |
| `Session.StaleUserFetchAfterLogout` | src/app/services/auth.service.ts:115-118 | a fetch that settles after logout still installs its user, without a token |
| `Session.OnTokenReply` | src/app/services/auth.service.ts:47-80 | a reply with a token stores it and waits for the user; a reply without one, or a transport failure, clears the session and fails with the matching error |
| `Session.OnLoginUserFetched` | src/app/services/auth.service.ts:55-67 | the second login step always emits the original token reply, whatever the user fetch returned |
| `Session.Login` | src/app/services/auth.service.ts:47-80 | a transport failure, or a reply without a token, logs out and fails with that error (`Access token not received` for the missing token); with a token, login succeeds with the token reply and the session is the stored token followed by the outcome of the profile fetch |
| `Session.LoginSucceedsIffToken` | src/app/services/auth.service.ts:50-72 | login succeeds exactly when the token reply carried a token, and then it yields that reply |
| `Session.LoginAuthenticatesIffBothSucceed` | src/app/services/auth.service.ts:50-68 | the session ends authenticated exactly when a token arrived and the user fetch succeeded; the fetched user is then current |
| `Session.LoginSucceedsButLoggedOut` | src/app/services/auth.service.ts:60-66 | a token with a failing user fetch yields login success and a logged-out session |
| `Session.FailedLoginClearsSession` | src/app/services/auth.service.ts:74-79 | every failed login leaves no token and no user; a transport failure is re-raised unchanged |
| `Session.LoginKeepsConsistent` | src/app/services/auth.service.ts:47-80 | login never leaves a user without a live token |
| `Session.PreviousUserVisibleDuringLogin` | src/app/services/auth.service.ts:51-55 | while the login's user fetch is pending, the previous role is still current |
| `Guards.RoleGuard` | src/app/guards/role.guard.ts:20-27 | allow exactly when the role is truthy and listed; the only other result is the redirect to `/login` |
| `Guards.NeverPlainFalse` | src/app/guards/role.guard.ts:23-27 | the guard never returns a plain `false` |
| `Guards.MissingRoleDenied` | src/app/guards/role.guard.ts:20 | a missing or empty role is redirected whatever the route lists |
| `Guards.EmptyRoleListDeniesAll` | src/app/guards/role.guard.ts:20 | a route listing no role admits nobody |
| `Guards.MoreRolesAdmitMore` | src/app/guards/role.guard.ts:20 | listing more roles never turns an admission into a refusal |
| `Guards.DecisionDependsOnlyOnRole` | src/app/guards/role.guard.ts:14-29 | two sessions with the same current role get the same decision |
| `Guards.LoggedOutDenied` | src/app/guards/role.guard.ts:17-27 | after logout every role-guarded route redirects to `/login` |
| `Routes.TablePathsDistinct` | src/app/app.routes.ts:5-14 | `Routes.Table` declares every path once, so each route is the first with its own path; only the empty path redirects, and exactly the login and signup screens carry no guards |
| `Routes.Lookup` | src/app/app.routes.ts:5-14 | the result is the first route with that path, or nothing when none has it |
| `Routes.CombineGuards` | src/app/app.routes.ts:9-13 | guards let through exactly when every guard returned `true`; otherwise the first guard in `canActivate` order not to return `true` decides with its own result |
| `Routes.Enter` | src/app/app.routes.ts:5-14 | a redirect route redirects to its target; a screen opens exactly when every guard in its `canActivate` list returns `true`, and otherwise the first guard that does not decides: `false` cancels, a URL tree redirects |
| `Routes.Navigate` | src/app/app.routes.ts:5-14 | the first route with the requested path is entered; nothing matches only when no route has the path |
| `Routes.LookupFindsFirst` | src/app/app.routes.ts:5-14 | a route is found when no earlier route has its path |
| `Routes.NavigateAt` | src/app/app.routes.ts:5-14 | navigating to the path of a route with no earlier duplicate enters that route |
| `Routes.EnterGuardedScreen` | src/app/app.routes.ts:9-13 | entering a screen guarded by `[authGuard, roleGuard]`: a refusing `authGuard` decides; after that the role guard decides |
| `Routes.EnterOpenScreen` | src/app/app.routes.ts:7-8 | a screen with no guards always opens |
| `Routes.EmptyPathRedirectsToLogin` | src/app/app.routes.ts:6 | the empty path redirects to `/login` |
| `Routes.LoginAndSignupUnguarded` | src/app/app.routes.ts:7-8 | login and signup open for everybody |
| `Routes.OtherScreensCarryBothGuards` | src/app/app.routes.ts:9-13 | every other screen carries `[authGuard, roleGuard]` and declares its roles |
| `Routes.GuardedNavigation` | src/app/app.routes.ts:9-13 | once authentication passes, a guarded screen opens exactly for its listed roles; every refusal redirects to `/login` |
| `Routes.UsersAdminOnly` | src/app/app.routes.ts:11 | user management is reached exactly by `admin` |
| `Routes.UploadAndIngestionAdminOrEditor` | src/app/app.routes.ts:10-13 | upload and the ingestion dashboard are reached exactly by `admin` and `editor` |
| `Routes.DocumentsAndQaAnyRole` | src/app/app.routes.ts:9-12 | the document list and the question screen are reached exactly by the three roles |
| `Routes.NoUserNoScreen` | src/app/app.routes.ts:9-13 | without a current user no guarded screen opens, even when authentication passes |
| `Polling.Tick` | src/app/components/document-list/document-list.component.ts:112-115 | a live tick issues the next tag and supersedes every earlier one; a dead subscription ignores ticks |
| `Polling.Settle` | src/app/components/document-list/document-list.component.ts:116-131 | only the request in flight is completed; an error reply ends the subscription; any other reply is dropped |
| `Polling.Destroy` | src/app/components/document-list/document-list.component.ts:134-138 | after unsubscribing no tag is accepted |
| `Polling.StartedValid` | src/app/components/document-list/document-list.component.ts:110-116 | a fresh subscription is well formed and accepts no reply before the first tick |
| `Polling.SupersededRejected` | src/app/components/document-list/document-list.component.ts:114 | a tag older than the latest issued one is never accepted |
| `Polling.Run` | src/app/components/document-list/document-list.component.ts:112-131 | any run keeps the poller well formed; each event passes on at most one reply and issues at most one new generation |
| `Polling.Step` | src/app/components/document-list/document-list.component.ts:112-131 | a reply is passed on exactly when it carries the accepted tag |
| `Polling.RunDeliversInIssueOrder` | src/app/components/document-list/document-list.component.ts:112-115 | over any run of events, delivered tags strictly increase; none is older than the request in flight at the start or newer than the last issued |
| `Polling.SupersededNeverDelivered` | src/app/components/document-list/document-list.component.ts:114 | a superseded request is never delivered, whatever follows |
| `Polling.NothingAfterDestroy` | src/app/components/document-list/document-list.component.ts:134-137 | after unsubscribing no run delivers anything or revives polling |
| `Polling.ErrorEndsPolling` | src/app/components/document-list/document-list.component.ts:127-130 | after an accepted error reply, ticks issue nothing |
| `JsText.Trim` | src/app/components/qa-interface/qa-interface.component.ts:23 | the result is the slice of the input left after dropping white space at both ends: empty exactly when the input is all whitespace, and otherwise with no whitespace at either end |
| `JsText.NatToString` | src/app/components/document-list/document-list.component.ts:45 | the rendering is all digits, reads back left to right as the number, and has no leading zero except for `0` itself, as `String(n)` gives for ids below 10^21 |
| `JsText.IntToString` | src/app/components/document-list/document-list.component.ts:45 | the key starts with a minus sign exactly for a negative id, and the rest is a decimal numeral without leading zeros that reads back as the id's magnitude |
| `JsText.IntToStringInjective` | src/app/components/document-list/document-list.component.ts:45-46 | distinct document ids look up distinct status keys |
| `DocumentList.WithBlankStatus` | src/app/components/document-list/document-list.component.ts:30 | every document keeps its id and other fields, in order, and shows an empty status |
| `DocumentList.MergeStatus` | src/app/components/document-list/document-list.component.ts:44-49 | length, order, ids and other fields are kept; a document takes its entry's status when one exists, else keeps its own |
| `DocumentList.MergeEmptyIsIdentity` | src/app/components/document-list/document-list.component.ts:44-49 | an empty status object changes nothing |
| `DocumentList.MergeIdempotent` | src/app/components/document-list/document-list.component.ts:120-125 | merging the same status object twice is merging it once |
| `DocumentList.MergeTwice` | src/app/components/document-list/document-list.component.ts:44-49 | two merges are one merge with the union, and the later object wins |
| `DocumentList.MarkPending` | src/app/components/document-list/document-list.component.ts:63-68 | exactly the documents with that id become `pending`; everything else is kept |
| `DocumentList.RemoveById` | src/app/components/document-list/document-list.component.ts:81 | no document with that id remains, and every other document remains exactly as often as before |
| `DocumentList.RemoveKeepsOrder` | src/app/components/document-list/document-list.component.ts:81 | deleting distributes over concatenation, so the relative order of the rest is kept |
| `DocumentList.RemoveAbsentIsIdentity` | src/app/components/document-list/document-list.component.ts:81 | deleting an id nobody has changes nothing |
| `DocumentList.RemoveTwiceIsOnce` | src/app/components/document-list/document-list.component.ts:81 | a second successful delete of the same id changes nothing more |
| `DocumentList.Step` | src/app/components/document-list/document-list.component.ts:21-138 | every event keeps the polling state well formed; each event's effect is stated by the lemmas below |
| `DocumentList.OpenedValid` | src/app/components/document-list/document-list.component.ts:21-24 | the opened screen is well formed and polling is live |
| `DocumentList.Run` | src/app/components/document-list/document-list.component.ts:21-138 | every run of screen events keeps the polling state well formed; `DocumentList.RunFollowsPolling` ties its poller to `Polling.Run` |
| `DocumentList.StepFollowsPolling` | src/app/components/document-list/document-list.component.ts:110-138 | the screen's poller moves as the switch-latest poller does, and a polling reply changes the list exactly when that poller passes it on |
| `DocumentList.RunFollowsPolling` | src/app/components/document-list/document-list.component.ts:110-138 | over any run of screen events, the screen's poller ends where the switch-latest poller ends on the run's polling events |
| `DocumentList.DocumentsLoadedBlankStatus` | src/app/components/document-list/document-list.component.ts:29-38 | a loaded list shows empty statuses, and a status fetch follows exactly when the list is not empty |
| `DocumentList.DocumentsLoadFailed` | src/app/components/document-list/document-list.component.ts:51-54 | a failed load only sets the message and ends the load |
| `DocumentList.TriggerOutcome` | src/app/components/document-list/document-list.component.ts:58-75 | a successful trigger marks only matching documents `pending`; a failed one only sets the message |
| `DocumentList.DeleteSuccessRemoves` | src/app/components/document-list/document-list.component.ts:79-82 | a successful delete keeps exactly the documents with another id and changes nothing else on the screen |
| `DocumentList.StatusLoadOutcome` | src/app/components/document-list/document-list.component.ts:41-54 | while the status fetch is outstanding, success merges the statuses and failure sets the load message and keeps the list; a reply nobody waits for changes nothing |
| `DocumentList.TickChangesOnlyPoller` | src/app/components/document-list/document-list.component.ts:112-115 | a timer tick changes the polling state and nothing else |
| `DocumentList.PolledErrorKeepsScreen` | src/app/components/document-list/document-list.component.ts:127-130 | an accepted polling error ends polling and leaves the list and the message as they were |
| `DocumentList.DeleteFailureKeepsList` | src/app/components/document-list/document-list.component.ts:83-86 | a failed delete keeps the list and sets the message |
| `DocumentList.DownloadTouchesOnlyMessage` | src/app/components/document-list/document-list.component.ts:90-108 | a download never changes the list or polling; only a failure sets the message |
| `DocumentList.StalePollIgnored` | src/app/components/document-list/document-list.component.ts:112-115 | a superseded polling reply leaves the screen unchanged |
| `DocumentList.PollingInertAfterDestroy` | src/app/components/document-list/document-list.component.ts:134-138 | after destroy, ticks and polling replies change nothing and polling stays off |
| `DocumentList.InitialStatusOutlivesDestroy` | src/app/components/document-list/document-list.component.ts:26-56 | the one-shot status fetch is not cancelled by destroy, and its reply still merges |
| `DocumentList.InitialStatusMayOverrideNewerPoll` | src/app/components/document-list/document-list.component.ts:41-50 | a late one-shot reply merges on top of a newer polling reply |
| `IngestionStatus.ApplyReply` | src/app/components/ingestion-status/ingestion-status.component.ts:44-55 | success replaces the whole object and clears the message; failure sets the message and keeps the tasks |
| `IngestionStatus.Step` | src/app/components/ingestion-status/ingestion-status.component.ts:21-42 | every event keeps the polling state well formed; each event's effect is stated by the lemmas below |
| `IngestionStatus.LoadedAppliesReply` | src/app/components/ingestion-status/ingestion-status.component.ts:44-55 | while the one-shot fetch is outstanding its reply goes through the shared handlers (success replaces the object and clears the message; failure sets the message and keeps the tasks) and polling is untouched; a reply nobody waits for changes nothing |
| `IngestionStatus.TickChangesOnlyPoller` | src/app/components/ingestion-status/ingestion-status.component.ts:24-25 | a timer tick changes the polling state and nothing else |
| `IngestionStatus.OpenedValid` | src/app/components/ingestion-status/ingestion-status.component.ts:21-36 | the opened screen is well formed and polling is live |
| `IngestionStatus.StepFollowsPolling` | src/app/components/ingestion-status/ingestion-status.component.ts:24-42 | the screen's poller moves as the switch-latest poller does, and a polling reply is applied exactly when that poller passes it on |
| `IngestionStatus.PolledReplaces` | src/app/components/ingestion-status/ingestion-status.component.ts:27-29 | an accepted polling reply becomes the whole object and clears the message |
| `IngestionStatus.PolledErrorKeepsTasks` | src/app/components/ingestion-status/ingestion-status.component.ts:31-33 | an accepted polling error sets the message, keeps the tasks and ends polling |
| `IngestionStatus.StalePollIgnored` | src/app/components/ingestion-status/ingestion-status.component.ts:24-25 | a superseded polling reply leaves the screen unchanged |
| `IngestionStatus.PollingInertAfterDestroy` | src/app/components/ingestion-status/ingestion-status.component.ts:38-42 | after destroy, ticks and polling replies change nothing |
| `IngestionStatus.InitialFetchOutlivesDestroy` | src/app/components/ingestion-status/ingestion-status.component.ts:44-55 | the one-shot fetch is not cancelled by destroy, and its reply still replaces the object |
| `IngestionStatus.GetTaskIds` | src/app/components/ingestion-status/ingestion-status.component.ts:57-59 | the result lists every key of the object exactly once and nothing else |
| `UserManagement.LastRole` | src/app/components/user-management/user-management.component.ts:29-31 | there is no role exactly when no user has that id; otherwise it is the role of the last user with that id |
| `UserManagement.SeedRoles` | src/app/components/user-management/user-management.component.ts:29-31 | a listed id maps to the role of its last user, and entries for unlisted ids are kept |
| `UserManagement.LastRoleOfDistinct` | src/app/components/user-management/user-management.component.ts:29-31 | with distinct ids, a user's last role is that user's own role |
| `UserManagement.SeedRolesOfDistinct` | src/app/components/user-management/user-management.component.ts:29-31 | with distinct ids, every loaded user's selector shows that user's role |
| `UserManagement.OnUsersLoaded` | src/app/components/user-management/user-management.component.ts:24-38 | success replaces the users and seeds the selectors; failure sets the message and keeps users and selectors |
| `UserManagement.RequestRoleUpdate` | src/app/components/user-management/user-management.component.ts:40-47 | a request is issued exactly when a non-empty role is selected, and it carries that role; otherwise only the prompt is set |
| `UserManagement.LoadedScreenRequestsSeededRole` | src/app/components/user-management/user-management.component.ts:14-47 | on a screen opened empty and then loaded with distinct ids, updating a listed user sends the role its selector was seeded with, and updating an unlisted id only sets the prompt |
| `UserManagement.FindIndex` | src/app/components/user-management/user-management.component.ts:51 | the result is the first index with that id, or -1 when none has it |
| `UserManagement.SetFirstRole` | src/app/components/user-management/user-management.component.ts:51-54 | only the first user with that id takes the new role; every other user is kept |
| `UserManagement.OnRoleUpdated` | src/app/components/user-management/user-management.component.ts:47-60 | success updates the first matching user; failure keeps every role and sets the message; selectors never change |
| `UserManagement.RemoveUser` | src/app/components/user-management/user-management.component.ts:67 | no user with that id remains, and every other user remains exactly as often as before |
| `UserManagement.OnUserDeleted` | src/app/components/user-management/user-management.component.ts:63-74 | success drops the id; failure keeps the list and sets the message |
| `UserManagement.RemoveUserKeepsOrder` | src/app/components/user-management/user-management.component.ts:67 | deleting keeps the relative order of the other users |
| `UserManagement.RemoveUserAbsentIsIdentity` | src/app/components/user-management/user-management.component.ts:67 | deleting an id no user has changes nothing |
| `DocumentUpload.OnFileSelected` | src/app/components/document-upload/document-upload.component.ts:19-23 | the first chosen file is selected, or none; the success flag and the message are reset |
| `DocumentUpload.StartUpload` | src/app/components/document-upload/document-upload.component.ts:25-27 | a file is sent exactly when one is selected, and the form is unchanged |
| `DocumentUpload.OnUploaded` | src/app/components/document-upload/document-upload.component.ts:28-37 | success sets the flag and clears the selection; failure sets the message and keeps the selection and the flag |
| `DocumentUpload.FirstChosenFileIsSent` | src/app/components/document-upload/document-upload.component.ts:13-27 | the initial form sends nothing; after choosing files it sends the first one, and after emptying the chooser nothing |
| `DocumentUpload.RetryAfterFailureSendsSameFile` | src/app/components/document-upload/document-upload.component.ts:33-36 | after a failure the same file can be sent again |
| `DocumentUpload.NoResendAfterSuccess` | src/app/components/document-upload/document-upload.component.ts:30-31 | after a success another upload sends nothing |
| `QaInterface.Ask` | src/app/components/qa-interface/qa-interface.component.ts:20-39 | a question is sent, verbatim, exactly when it is not all whitespace; otherwise the prompt is set and the answer is empty |
| `QaInterface.BlankQuestionsRefused` | src/app/components/qa-interface/qa-interface.component.ts:23 | empty questions and questions of spaces, tabs and line breaks are refused |
| `QaInterface.OnAnswer` | src/app/components/qa-interface/qa-interface.component.ts:26-35 | success shows the answer; failure sets the message and clears the answer |
| `QaInterface.AskedQuestionOutcome` | src/app/components/qa-interface/qa-interface.component.ts:20-35 | a sent question ends with an answer and no message, or with no answer and the failure message |
| `JsText.BlankIffAllWhitespace` | src/app/components/qa-interface/qa-interface.component.ts:23 | `trim()` yields the empty string exactly for all-whitespace input |
| `LoginForm.Submit` | src/app/components/login/login.component.ts:23-24 | the message is cleared and the credentials are sent as typed |
| `LoginForm.ErrorMessage` | src/app/components/login/login.component.ts:31-37 | a string detail comes first, then a string message, then the generic text |
| `LoginForm.OnLoginResult` | src/app/components/login/login.component.ts:25-38 | success navigates to `/documents`; failure sets the selected message and stays |
| `LoginForm.DetailTakesPrecedence` | src/app/components/login/login.component.ts:31-34 | when both a detail and a message are strings, the detail is shown |
| `LoginForm.PlainErrorShowsItsMessage` | src/app/components/login/login.component.ts:33-34 | an error with no body shows its own message after the prefix |
| `LoginForm.MissingTokenMessage` | src/app/components/login/login.component.ts:33-34 | a token reply without a token shows `Login failed: Access token not received` |
| `SignupForm.Submit` | src/app/components/signup/signup.component.ts:23-24 | the message is cleared and exactly (username, email, password) is sent |
| `SignupForm.ErrorMessage` | src/app/components/signup/signup.component.ts:32-35 | a truthy detail replaces the default verbatim; otherwise the default is shown; the message is always truthy |
| `SignupForm.OnSignupResult` | src/app/components/signup/signup.component.ts:25-36 | success navigates to `/login`; failure sets the message and stays |
| `SignupForm.DefaultShownIffNoTruthyDetail` | src/app/components/signup/signup.component.ts:32-35 | the default is shown exactly when the error has no truthy detail (or the detail is the default text itself); any other message is the server's detail verbatim |
| `SignupForm.EmptyDetailKeepsDefault` | src/app/components/signup/signup.component.ts:33 | an empty-string detail is falsy and keeps the default |
| `Scenarios.LoginWithFailingProfileFetch` | src/app/services/auth.service.ts:60-66 | with a failing profile fetch, the login form navigates to `/documents`; that navigation opens no screen whatever `authGuard` returns, and when `authGuard` passes it is redirected to `/login` |
| `Scenarios.EditorUploadsUntilLogout` | src/app/app.routes.ts:10 | an editor who logs in reaches the upload screen, and is refused after logout |
| `Scenarios.ViewerKeptFromUserManagement` | src/app/app.routes.ts:11 | a viewer who logs in is still redirected away from user management |

## Left out

- HTTP transport, `localStorage`, console logging and the 5000 ms timer are not modelled as such.
  - Each call is an event carrying its settled outcome.
  - Local storage is the session's `token` field.
  - Ticks are `Tick` events.
- The Blob, object-URL and anchor-click mechanics of a successful download are left out. Only the download's effect on the screen state is modelled.
- `authGuard` is not part of this model. It enters every navigation as the value it returned.
- A route that carries `roleGuard` but no `data.roles` is left out. The guard would throw when it reads `expectedRoles.join` (role.guard.ts line 19). Every such route in the table declares its roles (`Routes.OtherScreensCarryBothGuards`), so the model's empty-list default in `Routes.GuardValue` is never reached from the table.
- The thin HTTP wrappers (`DocumentService`, `UserService`, `QaService`, `AuthService.signup`) are left out. Beyond URLs, their only logic is the `Authorization` header, which `Session.AuthHeader` states.
- Values outside the modelled shapes are left out. The model's token is a string, its document list and status object are present, its errors are objects, and its users have a numeric `id` and a string `role`. In the client:
  - a truthy non-string `access_token` is stored by `setItem` as its string conversion (auth.service.ts lines 51-52);
  - a `null` document list makes `documents.map` throw inside the `switchMap` projection (document-list.component.ts line 30), which the stream delivers as an error, so the screen shows the load-failure message as for a failed request;
  - a `null` status object makes `statusData[document.id]` throw in the `next` handler when the list is not empty (document-list.component.ts lines 45 and 121);
  - a falsy error value falls through to the generic message on the login form (login.component.ts lines 31-36); on the signup form a `null` or `undefined` error value throws when `error.error` is read (signup.component.ts line 33), while the other falsy values (`false`, `0`, `""`, `NaN`) have no `error` property and leave the default message;
  - a user without `id` is keyed `"undefined"` in the role selectors (user-management.component.ts line 30), and a user without `role` is refused by the role guard's `userRole &&` test (role.guard.ts line 20).
- `IngestionStatus.GetTaskIds` states the set of keys, not their order: `Object.keys` lists integer-like keys first and the rest in insertion order, and a Dafny map has no order.
- JsText.NatToString: agrees with `String(n)` only for ids below 10^21, where `String` switches to exponent notation (`1e+21`). Ids above 2^53 are not exact JavaScript numbers, so there `document.id === id` and `String(id)` can merge distinct ids. The model's ids are unbounded integers and ignore both limits.
- `Routes.CombineGuards` models the outcome of Angular's guard combination, not the timing of asynchronous guards. The role guard reads the current value once, as the replaying subject delivers it.
- Polling does not resume after an error: the error ends the `interval`/`switchMap` subscription (document-list.component.ts lines 127-130, ingestion-status.component.ts lines 31-33), and the model sets the poller inactive.
- Test files that disagree with the code are not followed:
  - the login tests (`login.component.spec.ts`, lines 44 and 56) expect navigation to `/` and a different message;
  - the document-list tests (`document-list.component.spec.ts`, lines 43 and 53) expect the documents without `ingestionStatus` and a different load-failure message.
  The model follows the component code.


=== FILE: common.dfy ===
/** Shared vocabulary of the client: optional values, the outcome of one
    remote call, the few JavaScript values whose truthiness the screens test,
    and the user record the backend returns. */
module Common {

  /** A value that may be `null` / `undefined` in the client. */
  datatype Option<+T> = None | Some(value: T)

  /** The settled outcome of one HTTP call: the single `next` value, or the
      value passed to `error`. */
  datatype Response<+T> = Success(value: T) | Failure(error: HttpError)

  /** A JavaScript value as far as the client inspects it: `null`/`undefined`,
      a string, or any other value (number, array, object) with its truthiness. */
  datatype JsValue = JsNull | JsString(text: string) | JsOther(truthy: bool)

  /** JavaScript truthiness (`!!v`). */
  predicate Truthy(v: JsValue)
  {
    match v
    case JsNull => false
    case JsString(t) => t != ""
    case JsOther(b) => b
  }

  /** The parsed error body (`error.error`) of a failed call, when it is an
      object; only its `detail` member is ever read. */
  datatype ErrorBody = ErrorBody(detail: JsValue)

  /** A value delivered to an `error` callback: an HTTP error response (with a
      body when the server sent one) or a plain `Error` (no body). `message`
      is `error.message`. */
  datatype HttpError = HttpError(body: Option<ErrorBody>, message: JsValue)

  /** The user record of `/users/me/` and `/users/`. */
  datatype User = User(id: int, username: string, email: string, isActive: bool, role: string)

  /** One entry of the ingestion-status object: the task's `status` and its
      other members. */
  datatype TaskInfo = TaskInfo(status: string, attrs: map<string, string>)

  /** The ingestion-status object, indexed by property key. */
  type StatusMap = map<string, TaskInfo>
}

=== FILE: document_list.dfy ===
/** The document list screen (`DocumentListComponent`): the documents with
    their ingestion status, the one-shot load of documents and statuses, the
    switch-latest status polling, and the trigger / delete / download
    actions, each as a transition on an explicit event. */
module DocumentList {
  import opened Common
  import JsText
  import Seqs
  import Polling

  /** A document as the list endpoint returns it; `attrs` are its other
      members (title, filename, ...). */
  datatype RemoteDocument = RemoteDocument(id: int, attrs: map<string, string>)

  /** A displayed document: the server's record plus `ingestionStatus`. */
  datatype Document = Document(id: int, attrs: map<string, string>, ingestionStatus: string)

  /** The property under which `statusData[document.id]` is looked up. */
  function Key(id: int): string
  {
    JsText.IntToString(id)
  }

  /** `documents.map(document => ({ ...document, ingestionStatus: '' }))` */
  function WithBlankStatus(remote: seq<RemoteDocument>): (r: seq<Document>)
    ensures |r| == |remote|
    ensures forall i :: 0 <= i < |r| ==>
              r[i].id == remote[i].id && r[i].attrs == remote[i].attrs && r[i].ingestionStatus == ""
  {
    seq(|remote|, i requires 0 <= i < |remote| => Document(remote[i].id, remote[i].attrs, ""))
  }

  /** The status a document shows after a merge with `m`. */
  function MergedStatus(d: Document, m: StatusMap): string
  {
    if Key(d.id) in m then m[Key(d.id)].status else d.ingestionStatus
  }

  /** The partial merge of a status object into the list: a document with an
      entry takes that entry's `status`; every other document, and every
      other field, is left as it was; order and length are kept. */
  function MergeStatus(docs: seq<Document>, m: StatusMap): (r: seq<Document>)
    ensures |r| == |docs|
    ensures forall i :: 0 <= i < |docs| ==>
              r[i].id == docs[i].id && r[i].attrs == docs[i].attrs
    ensures forall i :: 0 <= i < |docs| ==>
              r[i].ingestionStatus == (if Key(docs[i].id) in m then m[Key(docs[i].id)].status else docs[i].ingestionStatus)
  {
    if docs == [] then []
    else [docs[0].(ingestionStatus := MergedStatus(docs[0], m))] + MergeStatus(docs[1..], m)
  }

  /** An empty status object changes nothing. */
  lemma MergeEmptyIsIdentity(docs: seq<Document>)
    ensures MergeStatus(docs, map[]) == docs
  {
  }

  /** Merging the same status object twice is merging it once. */
  lemma MergeIdempotent(docs: seq<Document>, m: StatusMap)
    ensures MergeStatus(MergeStatus(docs, m), m) == MergeStatus(docs, m)
  {
  }

  /** Two merges in a row are one merge with the union, the later object
      winning on common keys: a later result overrides an earlier one exactly
      where it has an entry. */
  lemma MergeTwice(docs: seq<Document>, m1: StatusMap, m2: StatusMap)
    ensures MergeStatus(MergeStatus(docs, m1), m2) == MergeStatus(docs, m1 + m2)
  {
  }

  /** `triggerIngestion` success: only documents with that id become
      `'pending'`. */
  function MarkPending(docs: seq<Document>, id: int): (r: seq<Document>)
    ensures |r| == |docs|
    ensures forall i :: 0 <= i < |docs| ==> r[i].id == docs[i].id && r[i].attrs == docs[i].attrs
    ensures forall i :: 0 <= i < |docs| ==>
              r[i].ingestionStatus == (if docs[i].id == id then "pending" else docs[i].ingestionStatus)
  {
    if docs == [] then []
    else [if docs[0].id == id then docs[0].(ingestionStatus := "pending") else docs[0]] + MarkPending(docs[1..], id)
  }

  /** `deleteDocument` success: every document with that id is dropped, and
      every other one stays, exactly as often as before. */
  function RemoveById(docs: seq<Document>, id: int): (r: seq<Document>)
    ensures forall i :: 0 <= i < |r| ==> r[i].id != id && r[i] in docs
    ensures forall i :: 0 <= i < |docs| && docs[i].id != id ==> docs[i] in r
    ensures forall d :: multiset(r)[d] == if d.id != id then multiset(docs)[d] else 0
  {
    Seqs.Filter(docs, (d: Document) => d.id != id)
  }

  /** Deleting keeps the relative order of the other documents. */
  lemma RemoveKeepsOrder(a: seq<Document>, b: seq<Document>, id: int)
    ensures RemoveById(a + b, id) == RemoveById(a, id) + RemoveById(b, id)
  {
    Seqs.FilterAppend(a, b, (d: Document) => d.id != id);
  }

  /** A second delete of the same id, after the first succeeded, changes
      nothing more. */
  lemma RemoveTwiceIsOnce(docs: seq<Document>, id: int)
    ensures RemoveById(RemoveById(docs, id), id) == RemoveById(docs, id)
  {
    Seqs.FilterIdempotent(docs, (d: Document) => d.id != id);
  }

  /** Deleting a document nobody has changes nothing. */
  lemma RemoveAbsentIsIdentity(docs: seq<Document>, id: int)
    requires forall i :: 0 <= i < |docs| ==> docs[i].id != id
    ensures RemoveById(docs, id) == docs
  {
    Seqs.FilterAllKept(docs, (d: Document) => d.id != id);
  }

  // -------------------------------------------------------------- screen

  const LoadFailed := "Failed to load documents or ingestion status. Please check console for details."
  const TriggerFailed := "Failed to trigger ingestion."
  const DeleteFailed := "Failed to delete document."
  const DownloadFailed := "Failed to download document."

  /** The screen: the list, the error message, whether the one-shot document
      load and its follow-up status fetch are outstanding, and the polling
      subscription. */
  datatype Screen = Screen(
    documents: seq<Document>,
    errorMessage: Option<string>,
    loading: bool,
    statusPending: bool,
    poller: Polling.Poller)

  predicate Valid(s: Screen)
  {
    Polling.Valid(s.poller)
  }

  /** `ngOnInit`: the document load is issued and polling is subscribed. */
  const Opened: Screen := Screen([], None, true, false, Polling.Started)

  /** The completions and actions the screen reacts to. `Tick` is a timer
      tick; `Polled` is the reply to the request of generation `tag`. The
      three actions are each given together with their reply. */
  datatype Event =
    | DocumentsLoaded(documentsReply: Response<seq<RemoteDocument>>)
    | StatusLoaded(statusReply: Response<StatusMap>)
    | Tick
    | Polled(tag: nat, pollReply: Response<StatusMap>)
    | IngestionTriggered(triggerId: int, triggerReply: Response<()>)
    | DocumentDeleted(deleteId: int, deleteReply: Response<()>)
    | DocumentDownloaded(downloadId: int, downloadReply: Response<()>)
    | Destroyed

  function Step(s: Screen, e: Event): (r: Screen)
    requires Valid(s)
    ensures Valid(r)
  {
    match e
    case DocumentsLoaded(reply) =>
      if !s.loading then s
      else (match reply
        case Success(remote) =>
          s.(documents := WithBlankStatus(remote), loading := false, statusPending := |remote| > 0)
        case Failure(_) => s.(errorMessage := Some(LoadFailed), loading := false))
    case StatusLoaded(reply) =>
      if !s.statusPending then s
      else (match reply
        case Success(m) => s.(documents := MergeStatus(s.documents, m), statusPending := false)
        case Failure(_) => s.(errorMessage := Some(LoadFailed), statusPending := false))
    case Tick => s.(poller := Polling.Tick(s.poller))
    case Polled(tag, reply) =>
      if !Polling.Accepts(s.poller, tag) then s
      else (match reply
        case Success(m) =>
          s.(documents := MergeStatus(s.documents, m), poller := Polling.Settle(s.poller, tag, true))
        case Failure(_) => s.(poller := Polling.Settle(s.poller, tag, false)))
    case IngestionTriggered(id, reply) =>
      (match reply
        case Success(_) => s.(documents := MarkPending(s.documents, id))
        case Failure(_) => s.(errorMessage := Some(TriggerFailed)))
    case DocumentDeleted(id, reply) =>
      (match reply
        case Success(_) => s.(documents := RemoveById(s.documents, id))
        case Failure(_) => s.(errorMessage := Some(DeleteFailed)))
    case DocumentDownloaded(_, reply) =>
      (match reply
        case Success(_) => s
        case Failure(_) => s.(errorMessage := Some(DownloadFailed)))
    case Destroyed => s.(poller := Polling.Destroy(s.poller))
  }

  /** The opened screen is well formed, so every run of events can start
      from it. */
  lemma OpenedValid()
    ensures Valid(Opened) && Opened.poller.active
  {
  }

  /** The polling event an event of the screen is, if any. */
  function PollEventOf(e: Event): Option<Polling.PollEvent>
  {
    match e
    case Tick => Some(Polling.TickEvent)
    case Polled(tag, reply) => Some(Polling.ReplyEvent(tag, reply.Success?))
    case Destroyed => Some(Polling.DestroyEvent)
    case _ => None
  }

  /** The screen's poller moves exactly as the switch-latest poller does on
      the same event, and a polling reply touches the list exactly when that
      poller passes it on. */
  lemma StepFollowsPolling(s: Screen, e: Event)
    requires Valid(s)
    ensures PollEventOf(e).None? ==> Step(s, e).poller == s.poller
    ensures PollEventOf(e).Some? ==> Step(s, e).poller == Polling.Step(s.poller, PollEventOf(e).value).0
    ensures e.Polled? && Polling.Step(s.poller, PollEventOf(e).value).1.None? ==> Step(s, e) == s
    ensures e.Polled? && Polling.Step(s.poller, PollEventOf(e).value).1.Some? ==>
              Step(s, e).documents == (if e.pollReply.Success? then MergeStatus(s.documents, e.pollReply.value) else s.documents)
  {
  }

  /** A run of events on the screen. */
  function Run(s: Screen, events: seq<Event>): (r: Screen)
    requires Valid(s)
    ensures Valid(r)
    decreases |events|
  {
    if events == [] then s else Run(Step(s, events[0]), events[1..])
  }

  /** The polling events of a run, in order. */
  function PollEvents(events: seq<Event>): seq<Polling.PollEvent>
  {
    if events == [] then []
    else (if PollEventOf(events[0]).Some? then [PollEventOf(events[0]).value] else []) + PollEvents(events[1..])
  }

  /** Over any run, the screen's poller ends where the switch-latest poller
      ends on the run's polling events, so the ordering and destroy results
      proved for that poller hold for the screen. */
  lemma {:induction false} RunFollowsPolling(s: Screen, events: seq<Event>)
    requires Valid(s)
    ensures Run(s, events).poller == Polling.Run(s.poller, PollEvents(events)).0
    decreases |events|
  {
    if events != [] {
      var e := events[0];
      StepFollowsPolling(s, e);
      RunFollowsPolling(Step(s, e), events[1..]);
      if PollEventOf(e).Some? {
        var pe := [PollEventOf(e).value] + PollEvents(events[1..]);
        assert PollEvents(events) == pe && pe[0] == PollEventOf(e).value && pe[1..] == PollEvents(events[1..]);
      } else {
        assert PollEvents(events) == PollEvents(events[1..]);
      }
    }
  }

  /** After the document load every document shows `''`, and a status fetch
      follows exactly when the list is not empty. */
  lemma DocumentsLoadedBlankStatus(s: Screen, remote: seq<RemoteDocument>)
    requires Valid(s) && s.loading
    ensures Step(s, DocumentsLoaded(Success(remote))).documents == WithBlankStatus(remote)
    ensures Step(s, DocumentsLoaded(Success(remote))).statusPending <==> |remote| > 0
  {
  }

  /** A failed load only sets the message. */
  lemma DocumentsLoadFailed(s: Screen, err: HttpError)
    requires Valid(s) && s.loading
    ensures Step(s, DocumentsLoaded(Failure(err))) ==
            s.(errorMessage := Some(LoadFailed), loading := false)
  {
  }

  /** A successful trigger changes only the matching documents' status; a
      failed one changes only the message. */
  lemma TriggerOutcome(s: Screen, id: int, reply: Response<()>)
    requires Valid(s)
    ensures |Step(s, IngestionTriggered(id, reply)).documents| == |s.documents|
    ensures reply.Success? ==>
              Step(s, IngestionTriggered(id, reply)).errorMessage == s.errorMessage
    ensures reply.Success? ==> forall i :: 0 <= i < |s.documents| ==>
              Step(s, IngestionTriggered(id, reply)).documents[i] ==
                (if s.documents[i].id == id then s.documents[i].(ingestionStatus := "pending") else s.documents[i])
    ensures reply.Failure? ==> Step(s, IngestionTriggered(id, reply)) == s.(errorMessage := Some(TriggerFailed))
  {
  }

  /** A successful delete removes exactly the documents with that id and
      changes nothing else on the screen. */
  lemma DeleteSuccessRemoves(s: Screen, id: int, u: ())
    requires Valid(s)
    ensures Step(s, DocumentDeleted(id, Success(u))) == s.(documents := RemoveById(s.documents, id))
    ensures forall d :: d in Step(s, DocumentDeleted(id, Success(u))).documents <==> d in s.documents && d.id != id
  {
  }

  /** The follow-up status fetch settles: while it is outstanding, success
      merges the statuses and failure sets the load message, keeping the
      list; a reply nobody waits for changes nothing. */
  lemma StatusLoadOutcome(s: Screen, reply: Response<StatusMap>)
    requires Valid(s)
    ensures !s.statusPending ==> Step(s, StatusLoaded(reply)) == s
    ensures s.statusPending && reply.Success? ==>
              Step(s, StatusLoaded(reply)) == s.(documents := MergeStatus(s.documents, reply.value), statusPending := false)
    ensures s.statusPending && reply.Failure? ==>
              Step(s, StatusLoaded(reply)) == s.(errorMessage := Some(LoadFailed), statusPending := false)
  {
  }

  /** A timer tick changes the polling state and nothing else. */
  lemma TickChangesOnlyPoller(s: Screen)
    requires Valid(s)
    ensures Step(s, Tick) == s.(poller := Polling.Tick(s.poller))
  {
  }

  /** An accepted polling error ends polling and leaves the list and the
      message as they were. */
  lemma PolledErrorKeepsScreen(s: Screen, tag: nat, err: HttpError)
    requires Valid(s) && Polling.Accepts(s.poller, tag)
    ensures Step(s, Polled(tag, Failure(err))) == s.(poller := Polling.Settle(s.poller, tag, false))
    ensures !Step(s, Polled(tag, Failure(err))).poller.active
  {
  }

  /** A failed delete leaves the list as it was. */
  lemma DeleteFailureKeepsList(s: Screen, id: int, err: HttpError)
    requires Valid(s)
    ensures Step(s, DocumentDeleted(id, Failure(err))).documents == s.documents
    ensures Step(s, DocumentDeleted(id, Failure(err))).errorMessage == Some(DeleteFailed)
  {
  }

  /** A download never touches the list or polling; only its failure sets
      the message. */
  lemma DownloadTouchesOnlyMessage(s: Screen, id: int, reply: Response<()>)
    requires Valid(s)
    ensures Step(s, DocumentDownloaded(id, reply)).documents == s.documents
    ensures Step(s, DocumentDownloaded(id, reply)).poller == s.poller
    ensures Step(s, DocumentDownloaded(id, reply)).errorMessage ==
              (if reply.Success? then s.errorMessage else Some(DownloadFailed))
  {
  }

  /** A reply of a superseded polling generation is dropped. */
  lemma StalePollIgnored(s: Screen, tag: nat, reply: Response<StatusMap>)
    requires Valid(s) && tag < s.poller.issued
    ensures Step(s, Polled(tag, reply)) == s
  {
  }

  /** After `ngOnDestroy` neither ticks nor polling replies change the
      screen, and no event revives polling. */
  lemma PollingInertAfterDestroy(s: Screen, e: Event)
    requires Valid(s) && !s.poller.active
    ensures e.Tick? || e.Polled? ==> Step(s, e) == s
    ensures !Step(s, e).poller.active
  {
  }

  /** `ngOnDestroy` does not cancel the one-shot status fetch: its late reply
      still rewrites the list of the destroyed screen. */
  lemma InitialStatusOutlivesDestroy(s: Screen, m: StatusMap)
    requires Valid(s) && s.statusPending
    ensures Step(Step(s, Destroyed), StatusLoaded(Success(m))).documents == MergeStatus(s.documents, m)
  {
  }

  /** The one-shot status fetch is not ordered against polling: when its
      reply arrives after a newer polling reply, it is applied on top. */
  lemma InitialStatusMayOverrideNewerPoll(s: Screen, m0: StatusMap, m1: StatusMap)
    requires Valid(s) && s.statusPending && Polling.Accepts(s.poller, s.poller.issued)
    ensures var afterPoll := Step(s, Polled(s.poller.issued, Success(m1)));
            Step(afterPoll, StatusLoaded(Success(m0))).documents == MergeStatus(s.documents, m1 + m0)
  {
    MergeTwice(s.documents, m1, m0);
  }
}

=== FILE: document_upload.dfy ===
/** The upload form (`DocumentUploadComponent`): file selection and the
    outcome of one upload. */
module DocumentUpload {
  import opened Common

  /** A file chosen in the browser; its bytes are not modelled. */
  datatype File = File(name: string, size: nat)

  const UploadFailed := "File upload failed. Please try again."

  datatype Form = Form(selectedFile: Option<File>, uploadSuccess: bool, errorMessage: Option<string>)

  const Empty: Form := Form(None, false, None)

  /** `onFileSelected`: the first chosen file (none when the chooser was
      emptied), with the success flag and the message reset. */
  function OnFileSelected(f: Form, files: seq<File>): (r: Form)
    ensures |files| > 0 ==> r.selectedFile == Some(files[0])
    ensures |files| == 0 ==> r.selectedFile.None?
    ensures !r.uploadSuccess && r.errorMessage.None?
  {
    Form(if |files| > 0 then Some(files[0]) else None, false, None)
  }

  /** `uploadDocument` before the reply: the file to send, if one is
      selected; the form itself does not change. */
  function StartUpload(f: Form): (r: (Form, Option<File>))
    ensures r.0 == f
    ensures r.1 == f.selectedFile
  {
    (f, f.selectedFile)
  }

  /** The upload settles: success flags it and clears the selection; failure
      sets the message and keeps both the selection and the flag. */
  function OnUploaded(f: Form, reply: Response<()>): (r: Form)
    ensures reply.Success? ==> r.uploadSuccess && r.selectedFile.None? && r.errorMessage == f.errorMessage
    ensures reply.Failure? ==>
              r.errorMessage == Some(UploadFailed) && r.selectedFile == f.selectedFile && r.uploadSuccess == f.uploadSuccess
  {
    match reply
    case Success(_) => f.(uploadSuccess := true, selectedFile := None)
    case Failure(_) => f.(errorMessage := Some(UploadFailed))
  }

  /** The empty form sends nothing; once files are chosen, the first one is
      what the upload sends. */
  lemma FirstChosenFileIsSent(files: seq<File>)
    ensures StartUpload(Empty).1.None?
    ensures |files| > 0 ==> StartUpload(OnFileSelected(Empty, files)).1 == Some(files[0])
    ensures |files| == 0 ==> StartUpload(OnFileSelected(Empty, files)).1.None?
  {
  }

  /** After a failed upload the same file can be sent again without choosing
      it anew. */
  lemma RetryAfterFailureSendsSameFile(f: Form, err: HttpError)
    requires f.selectedFile.Some?
    ensures StartUpload(OnUploaded(f, Failure(err))).1 == f.selectedFile
  {
  }

  /** After a successful upload a second click sends nothing. */
  lemma NoResendAfterSuccess(f: Form)
    ensures StartUpload(OnUploaded(f, Success(()))).1.None?
  {
  }
}

=== FILE: guards.dfy ===
/** The role guard (`roleGuard`): reads the current role once from the
    session's replaying subject and either lets the navigation through or
    redirects it to the login screen. */
module Guards {
  import opened Common
  import Session

  /** What a route guard may return: a boolean, or a URL tree built from
      router commands. */
  datatype GuardResult = Verdict(allowed: bool) | RedirectTo(commands: seq<string>)

  const ToLogin: GuardResult := RedirectTo(["/login"])

  /** `userRole && expectedRoles.includes(userRole)`: a `null` or empty role
      is falsy. */
  predicate RoleAdmitted(role: Option<string>, expectedRoles: seq<string>)
  {
    role.Some? && role.value != "" && role.value in expectedRoles
  }

  /** The guard's decision: allow exactly when the role is admitted, and
      otherwise the redirect to `/login` (never a plain `false`). */
  function RoleGuard(role: Option<string>, expectedRoles: seq<string>): (r: GuardResult)
    ensures r == Verdict(true) || r == ToLogin
    ensures r == Verdict(true) <==> RoleAdmitted(role, expectedRoles)
  {
    if role.Some? && role.value != "" && role.value in expectedRoles then Verdict(true) else ToLogin
  }

  /** The guard evaluated against the session's current value. */
  function RoleGuardFor(s: Session.Session, expectedRoles: seq<string>): GuardResult
  {
    RoleGuard(Session.CurrentRole(s), expectedRoles)
  }

  lemma NeverPlainFalse(role: Option<string>, expectedRoles: seq<string>)
    ensures RoleGuard(role, expectedRoles) != Verdict(false)
  {
  }

  /** No role, or the empty role, is refused whatever the route asks for. */
  lemma MissingRoleDenied(expectedRoles: seq<string>)
    ensures RoleGuard(None, expectedRoles) == ToLogin
    ensures RoleGuard(Some(""), expectedRoles) == ToLogin
  {
  }

  /** A route that lists no role admits nobody. */
  lemma EmptyRoleListDeniesAll(role: Option<string>)
    ensures RoleGuard(role, []) == ToLogin
  {
  }

  /** Listing more roles never turns an admission into a refusal. */
  lemma MoreRolesAdmitMore(role: Option<string>, a: seq<string>, b: seq<string>)
    requires forall x :: x in a ==> x in b
    ensures RoleGuard(role, a) == Verdict(true) ==> RoleGuard(role, b) == Verdict(true)
  {
  }

  /** The guard looks at the current user's role only: two sessions with the
      same role get the same decision, whatever tokens they hold. In
      particular the role guard alone does not check authentication. */
  lemma DecisionDependsOnlyOnRole(s1: Session.Session, s2: Session.Session, expectedRoles: seq<string>)
    requires Session.CurrentRole(s1) == Session.CurrentRole(s2)
    ensures RoleGuardFor(s1, expectedRoles) == RoleGuardFor(s2, expectedRoles)
  {
  }

  /** After `logout` every role-guarded route redirects to `/login`. */
  lemma LoggedOutDenied(s: Session.Session, expectedRoles: seq<string>)
    ensures RoleGuardFor(Session.Logout(s), expectedRoles) == ToLogin
  {
  }
}

=== FILE: ingestion_status.dfy ===
/** The ingestion dashboard (`IngestionStatusComponent`): the status object
    replaced wholesale by the one-shot fetch and by every accepted polling
    reply, and the list of its task ids. */
module IngestionStatus {
  import opened Common
  import Polling

  const LoadFailed := "Failed to load ingestion status."

  /** The screen: the last status object, the error message, whether the
      one-shot fetch is outstanding, and the polling subscription. */
  datatype Screen = Screen(tasks: StatusMap, errorMessage: Option<string>, loading: bool, poller: Polling.Poller)

  predicate Valid(s: Screen)
  {
    Polling.Valid(s.poller)
  }

  /** `ngOnInit`: the one-shot fetch is issued and polling is subscribed. */
  const Opened: Screen := Screen(map[], None, true, Polling.Started)

  /** The `next` / `error` handlers shared by the one-shot fetch and polling:
      success replaces the whole object and clears the message; failure sets
      the message and keeps the tasks. */
  function ApplyReply(s: Screen, reply: Response<StatusMap>): (r: Screen)
    ensures r.loading == s.loading && r.poller == s.poller
    ensures reply.Success? ==> r.tasks == reply.value && r.errorMessage.None?
    ensures reply.Failure? ==> r.tasks == s.tasks && r.errorMessage == Some(LoadFailed)
  {
    match reply
    case Success(m) => s.(tasks := m, errorMessage := None)
    case Failure(_) => s.(errorMessage := Some(LoadFailed))
  }

  datatype Event =
    | Loaded(loadReply: Response<StatusMap>)
    | Tick
    | Polled(tag: nat, pollReply: Response<StatusMap>)
    | Destroyed

  function Step(s: Screen, e: Event): (r: Screen)
    requires Valid(s)
    ensures Valid(r)
  {
    match e
    case Loaded(reply) => if s.loading then ApplyReply(s, reply).(loading := false) else s
    case Tick => s.(poller := Polling.Tick(s.poller))
    case Polled(tag, reply) =>
      if Polling.Accepts(s.poller, tag)
      then ApplyReply(s, reply).(poller := Polling.Settle(s.poller, tag, reply.Success?))
      else s
    case Destroyed => s.(poller := Polling.Destroy(s.poller))
  }

  /** The opened screen is well formed. */
  lemma OpenedValid()
    ensures Valid(Opened) && Opened.poller.active
  {
  }

  /** The screen's poller moves exactly as the switch-latest poller does on
      ticks, replies and destroy, and a polling reply is applied exactly when
      that poller passes it on. */
  lemma StepFollowsPolling(s: Screen, e: Event)
    requires Valid(s)
    ensures e.Loaded? ==> Step(s, e).poller == s.poller
    ensures e.Tick? ==> Step(s, e).poller == Polling.Step(s.poller, Polling.TickEvent).0
    ensures e.Destroyed? ==> Step(s, e).poller == Polling.Step(s.poller, Polling.DestroyEvent).0
    ensures e.Polled? ==>
              var (p, out) := Polling.Step(s.poller, Polling.ReplyEvent(e.tag, e.pollReply.Success?));
              && Step(s, e).poller == p
              && (out.None? ==> Step(s, e) == s)
              && (out.Some? ==> Step(s, e) == ApplyReply(s, e.pollReply).(poller := p))
  {
  }

  /** The one-shot fetch settles through the shared handlers: while it is
      outstanding, success replaces the object and clears the message, and
      failure sets the message and keeps the tasks; a reply nobody waits for
      changes nothing. Polling is unaffected either way. */
  lemma LoadedAppliesReply(s: Screen, reply: Response<StatusMap>)
    requires Valid(s)
    ensures !s.loading ==> Step(s, Loaded(reply)) == s
    ensures s.loading ==> Step(s, Loaded(reply)) == ApplyReply(s, reply).(loading := false)
    ensures s.loading && reply.Failure? ==>
              Step(s, Loaded(reply)) == s.(errorMessage := Some(LoadFailed), loading := false)
  {
  }

  /** A timer tick changes the polling state and nothing else. */
  lemma TickChangesOnlyPoller(s: Screen)
    requires Valid(s)
    ensures Step(s, Tick) == s.(poller := Polling.Tick(s.poller))
  {
  }

  /** An accepted polling reply replaces the object: no task of the previous
      object survives unless the new one lists it. */
  lemma PolledReplaces(s: Screen, m: StatusMap)
    requires Valid(s) && Polling.Accepts(s.poller, s.poller.issued)
    ensures Step(s, Polled(s.poller.issued, Success(m))).tasks == m
    ensures Step(s, Polled(s.poller.issued, Success(m))).errorMessage.None?
  {
  }

  /** An accepted polling error sets the message, keeps the tasks, and ends
      polling. */
  lemma PolledErrorKeepsTasks(s: Screen, err: HttpError)
    requires Valid(s) && Polling.Accepts(s.poller, s.poller.issued)
    ensures Step(s, Polled(s.poller.issued, Failure(err))).tasks == s.tasks
    ensures Step(s, Polled(s.poller.issued, Failure(err))).errorMessage == Some(LoadFailed)
    ensures !Step(s, Polled(s.poller.issued, Failure(err))).poller.active
  {
  }

  /** Only the latest generation's reply is applied. */
  lemma StalePollIgnored(s: Screen, tag: nat, reply: Response<StatusMap>)
    requires Valid(s) && tag < s.poller.issued
    ensures Step(s, Polled(tag, reply)) == s
  {
  }

  /** After `ngOnDestroy` no tick or polling reply changes the screen. */
  lemma PollingInertAfterDestroy(s: Screen, e: Event)
    requires Valid(s) && !s.poller.active
    ensures e.Tick? || e.Polled? ==> Step(s, e) == s
    ensures !Step(s, e).poller.active
  {
  }

  /** `ngOnDestroy` does not cancel the one-shot fetch: its late reply still
      replaces the object of the destroyed screen. */
  lemma InitialFetchOutlivesDestroy(s: Screen, m: StatusMap)
    requires Valid(s) && s.loading
    ensures Step(Step(s, Destroyed), Loaded(Success(m))).tasks == m
  {
  }

  /** `getTaskIds`: `Object.keys(ingestionTasks)`, every key exactly once. */
  method GetTaskIds(tasks: StatusMap) returns (ids: seq<string>)
    ensures |ids| == |tasks.Keys|
    ensures forall k :: k in ids <==> k in tasks
    ensures forall i, j :: 0 <= i < j < |ids| ==> ids[i] != ids[j]
  {
    ids := [];
    var rest := tasks.Keys;
    while rest != {}
      invariant rest <= tasks.Keys
      invariant forall k :: k in ids <==> k in tasks.Keys - rest
      invariant forall i, j :: 0 <= i < j < |ids| ==> ids[i] != ids[j]
      invariant |ids| + |rest| == |tasks.Keys|
      decreases |rest|
    {
      var k :| k in rest;
      assert k !in ids;
      ids := ids + [k];
      rest := rest - {k};
    }
  }
}

=== FILE: js_text.dfy ===
/** The two pieces of JavaScript string semantics the client relies on:
    `String.prototype.trim` (used to reject blank questions) and the
    conversion of a numeric id to the property key under which a plain
    object is indexed (`statusData[document.id]`). */
module JsText {

  /** The code points `trim` removes: the WhiteSpace and LineTerminator
      productions of the ECMAScript language specification (TAB, VT, FF,
      ZWNBSP, every Unicode "Zs" space, LF, CR, LS, PS). */
  predicate IsWhitespace(c: char)
  {
    || c == '\t' || c == '\U{0B}' || c == '\U{0C}' || c == ' ' || c == '\U{A0}'
    || c == '\U{FEFF}' || c == '\U{1680}' || ('\U{2000}' <= c <= '\U{200A}')
    || c == '\U{202F}' || c == '\U{205F}' || c == '\U{3000}'
    || c == '\n' || c == '\r' || c == '\U{2028}' || c == '\U{2029}'
  }

  ghost predicate AllWhitespace(s: string)
  {
    forall i :: 0 <= i < |s| ==> IsWhitespace(s[i])
  }

  /** Drops the leading white space: the result is the suffix of `s` that
      starts at its first non-white-space character. */
  function TrimStart(s: string): (r: string)
    ensures |r| <= |s| && r == s[|s| - |r|..]
    ensures forall i :: 0 <= i < |s| - |r| ==> IsWhitespace(s[i])
    ensures r == [] || !IsWhitespace(r[0])
  {
    if s == [] || !IsWhitespace(s[0]) then s else TrimStart(s[1..])
  }

  /** Drops the trailing white space: the result is the prefix of `s` that
      ends at its last non-white-space character. */
  function TrimEnd(s: string): (r: string)
    ensures |r| <= |s| && r == s[..|r|]
    ensures forall i :: |r| <= i < |s| ==> IsWhitespace(s[i])
    ensures r == [] || !IsWhitespace(r[|r| - 1])
  {
    if s == [] || !IsWhitespace(s[|s| - 1]) then s else TrimEnd(s[..|s| - 1])
  }

  /** A prefix `r` of a suffix `t` of `s`, followed in `t` by white space
      only, is a slice of `s` followed in `s` by white space only. */
  lemma PrefixOfSuffix(s: string, t: string, r: string)
    requires |t| <= |s| && t == s[|s| - |t|..]
    requires |r| <= |t| && r == t[..|r|]
    requires forall k :: |r| <= k < |t| ==> IsWhitespace(t[k])
    ensures r == s[|s| - |t|..|s| - |t| + |r|]
    ensures forall k :: |s| - |t| + |r| <= k < |s| ==> IsWhitespace(s[k])
  {
    var i := |s| - |t|;
    forall k | i + |r| <= k < |s|
      ensures IsWhitespace(s[k])
    {
      assert s[k] == t[k - i];
    }
  }

  /** `s.trim()`: the slice of `s` left after dropping white space at both
      ends; empty exactly when `s` is all white space, and otherwise neither
      starts nor ends with white space. */
  function Trim(s: string): (r: string)
    ensures exists i, j :: && 0 <= i <= j <= |s| && r == s[i..j]
                           && (forall k :: 0 <= k < i ==> IsWhitespace(s[k]))
                           && (forall k :: j <= k < |s| ==> IsWhitespace(s[k]))
    ensures r == [] <==> AllWhitespace(s)
    ensures r == [] || (!IsWhitespace(r[0]) && !IsWhitespace(r[|r| - 1]))
  {
    var t := TrimStart(s);
    var r := TrimEnd(t);
    PrefixOfSuffix(s, t, r);
    r
  }

  /** A string is blank when `trim()` leaves the empty (falsy) string. */
  predicate IsBlank(s: string)
  {
    Trim(s) == ""
  }

  lemma BlankIffAllWhitespace(s: string)
    ensures IsBlank(s) <==> AllWhitespace(s)
  {
  }

  function DigitChar(d: nat): (c: char)
    requires d < 10
    ensures '0' <= c <= '9' && DigitValue(c) == d
  {
    ('0' as int + d) as char
  }

  /** The value of one decimal digit character. */
  function DigitValue(c: char): nat
    requires '0' <= c <= '9'
  {
    c as int - '0' as int
  }

  /** Reads a string of decimal digits left to right, most significant
      first; the reference against which the rendering below is checked. */
  function DigitsValue(d: string): nat
    requires forall i :: 0 <= i < |d| ==> '0' <= d[i] <= '9'
  {
    if d == [] then 0 else DigitsValue(d[..|d| - 1]) * 10 + DigitValue(d[|d| - 1])
  }

  /** Decimal rendering of a natural number, as `String(n)` gives it below
      10^21: digits only, reading back as `n`, with no leading zero except for
      `0` itself. */
  function NatToString(n: nat): (r: string)
    ensures 0 < |r|
    ensures forall i :: 0 <= i < |r| ==> '0' <= r[i] <= '9'
    ensures DigitsValue(r) == n
    ensures r[0] == '0' ==> r == "0"
    ensures (|r| == 1) == (n < 10)
  {
    if n < 10 then [DigitChar(n)]
    else
      var r := NatToString(n / 10) + [DigitChar(n % 10)];
      assert r[..|r| - 1] == NatToString(n / 10);
      r
  }

  /** The property key of a numeric id: `ToString` of the number, a minus
      sign for a negative id followed by the decimal digits of its
      magnitude. */
  function IntToString(i: int): (r: string)
    ensures 0 < |r|
    ensures (r[0] == '-') == (i < 0)
    ensures var digits := if i < 0 then r[1..] else r;
            && 0 < |digits| && (forall k :: 0 <= k < |digits| ==> '0' <= digits[k] <= '9')
            && DigitsValue(digits) == (if i < 0 then -i else i)
            && (digits[0] == '0' ==> digits == "0")
  {
    if i < 0 then "-" + NatToString(-i) else NatToString(i)
  }

  /** The rendering reads back as its number, so it is injective. */
  lemma NatToStringInjective(m: nat, n: nat)
    requires NatToString(m) == NatToString(n)
    ensures m == n
  {
    assert m == DigitsValue(NatToString(m));
  }

  /** Distinct ids index distinct properties of a status object. */
  lemma IntToStringInjective(i: int, j: int)
    requires IntToString(i) == IntToString(j)
    ensures i == j
  {
    if i < 0 && j < 0 {
      assert NatToString(-i) == IntToString(i)[1..];
      NatToStringInjective(-i, -j);
    } else if i >= 0 && j >= 0 {
      NatToStringInjective(i, j);
    }
  }
}

=== FILE: login_form.dfy ===
/** The login form (`LoginComponent`): the request it sends, where it goes
    on success, and which message it shows on failure. */
module LoginForm {
  import opened Common
  import Session

  const Prefix := "Login failed: "
  const Generic := "Login failed. Please check credentials or see console for details."

  datatype Form = Form(username: string, password: string, errorMessage: Option<string>)

  /** `login()` before the reply: the message is cleared and the credentials
      are sent as typed. */
  function Submit(f: Form): (r: (Form, (string, string)))
    ensures r.0 == f.(errorMessage := None)
    ensures r.1 == (f.username, f.password)
  {
    (f.(errorMessage := None), (f.username, f.password))
  }

  /** The message for a failed login: a string `error.error.detail` first,
      then a string `error.message`, then the generic text. */
  function ErrorMessage(e: HttpError): (m: string)
    ensures e.body.Some? && e.body.value.detail.JsString? ==> m == Prefix + e.body.value.detail.text
    ensures !(e.body.Some? && e.body.value.detail.JsString?) && e.message.JsString? ==> m == Prefix + e.message.text
    ensures !(e.body.Some? && e.body.value.detail.JsString?) && !e.message.JsString? ==> m == Generic
  {
    if e.body.Some? && e.body.value.detail.JsString? then Prefix + e.body.value.detail.text
    else if e.message.JsString? then Prefix + e.message.text
    else Generic
  }

  /** The login settles: success navigates to `/documents`; failure sets the
      message and stays. */
  function OnLoginResult(f: Form, outcome: Session.LoginOutcome): (r: (Form, Option<seq<string>>))
    ensures outcome.LoginSucceeded? ==> r == (f, Some(["/documents"]))
    ensures outcome.LoginFailed? ==> r == (f.(errorMessage := Some(ErrorMessage(outcome.error))), None)
  {
    match outcome
    case LoginSucceeded(_) => (f, Some(["/documents"]))
    case LoginFailed(e) => (f.(errorMessage := Some(ErrorMessage(e))), None)
  }

  /** The server's detail wins over the transport message, and any message
      shown for a string detail or message carries the common prefix. */
  lemma DetailTakesPrecedence(detail: string, message: string)
    ensures ErrorMessage(HttpError(Some(ErrorBody(JsString(detail))), JsString(message))) == Prefix + detail
  {
  }

  /** A plain `Error` has no body, so its own message is shown after the
      prefix. */
  lemma PlainErrorShowsItsMessage(text: string)
    ensures ErrorMessage(HttpError(None, JsString(text))) == "Login failed: " + text
  {
  }

  /** A reply without a token shows the service's own error text. */
  lemma MissingTokenMessage()
    ensures ErrorMessage(Session.TokenNotReceived) == "Login failed: Access token not received"
  {
    assert ErrorMessage(Session.TokenNotReceived) == Prefix + "Access token not received";
    var shown := Prefix + "Access token not received";
    assert |shown| == 39;
    assert forall i :: 0 <= i < 39 ==> shown[i] == "Login failed: Access token not received"[i];
  }
}

=== FILE: polling.dfy ===
/** The switch-latest polling discipline of `interval(5000).pipe(switchMap(
    () => getIngestionStatus()))`, written as a generation counter: every
    timer tick issues a request tagged with the next generation and cancels
    the one in flight, so only a reply carrying the latest tag reaches the
    subscriber. Unsubscribing cancels the timer and the request in flight.
    An error reply ends the subscription, as an error does in the stream. */
module Polling {
  import opened Common

  /** `issued` ticks so far; the tag of the one request still in flight;
      whether the subscription is live. */
  datatype Poller = Poller(issued: nat, inFlight: Option<nat>, active: bool)

  /** The subscription right after `subscribe`: no tick yet. */
  const Started: Poller := Poller(0, None, true)

  /** The request in flight is always the latest one issued, and a dead
      subscription has none. */
  predicate Valid(p: Poller)
  {
    && (p.inFlight.Some? ==> p.inFlight.value == p.issued && p.issued > 0)
    && (!p.active ==> p.inFlight.None?)
  }

  /** A fresh subscription is well formed and accepts nothing until the first
      tick. */
  lemma StartedValid()
    ensures Valid(Started) && Started.active
    ensures forall t :: !Accepts(Started, t)
  {
  }

  /** A reply tagged `tag` is passed on. */
  predicate Accepts(p: Poller, tag: nat)
  {
    p.active && p.inFlight == Some(tag)
  }

  /** A timer tick: a live subscription issues the next generation, which
      supersedes the request in flight; a dead one does nothing. */
  function Tick(p: Poller): (r: Poller)
    requires Valid(p)
    ensures Valid(r)
    ensures p.active ==> r.issued == p.issued + 1 && Accepts(r, r.issued)
    ensures p.active ==> forall t: nat :: t <= p.issued ==> !Accepts(r, t)
    ensures !p.active ==> r == p
  {
    if p.active then Poller(p.issued + 1, Some(p.issued + 1), true) else p
  }

  /** A reply tagged `tag` settles: when accepted it completes the request in
      flight, and an error reply (`ok` false) also ends the subscription;
      any other reply is dropped. */
  function Settle(p: Poller, tag: nat, ok: bool): (r: Poller)
    requires Valid(p)
    ensures Valid(r) && r.issued == p.issued
    ensures Accepts(p, tag) ==> r.inFlight.None? && r.active == ok
    ensures !Accepts(p, tag) ==> r == p
  {
    if Accepts(p, tag) then Poller(p.issued, None, ok) else p
  }

  /** `unsubscribe`. */
  function Destroy(p: Poller): (r: Poller)
    ensures Valid(r) && !r.active && r.issued == p.issued
    ensures forall t :: !Accepts(r, t)
  {
    Poller(p.issued, None, false)
  }

  /** A superseded generation is never accepted. */
  lemma SupersededRejected(p: Poller, tag: nat)
    requires Valid(p) && tag < p.issued
    ensures !Accepts(p, tag)
  {
  }

  // ------------------------------------------------------------- traces

  datatype PollEvent = TickEvent | ReplyEvent(tag: nat, ok: bool) | DestroyEvent

  /** One event; the second component is the tag of the reply passed on to
      the subscriber, if any. */
  function Step(p: Poller, e: PollEvent): (r: (Poller, Option<nat>))
    requires Valid(p)
    ensures Valid(r.0) && r.0.issued >= p.issued
    ensures r.1.Some? <==> e.ReplyEvent? && Accepts(p, e.tag)
    ensures r.1.Some? ==> r.1.value == e.tag
  {
    match e
    case TickEvent => (Tick(p), None)
    case ReplyEvent(tag, ok) => (Settle(p, tag, ok), if Accepts(p, tag) then Some(tag) else None)
    case DestroyEvent => (Destroy(p), None)
  }

  /** A run of events: the final state and the tags passed on, in order. */
  function Run(p: Poller, events: seq<PollEvent>): (r: (Poller, seq<nat>))
    requires Valid(p)
    ensures Valid(r.0)
    ensures |r.1| <= |events|
    ensures r.0.issued <= p.issued + |events|
    decreases |events|
  {
    if events == [] then (p, [])
    else
      var (p1, out) := Step(p, events[0]);
      var (p2, rest) := Run(p1, events[1..]);
      (p2, (if out.Some? then [out.value] else []) + rest)
  }

  predicate StrictlyIncreasing(s: seq<nat>)
  {
    forall i, j :: 0 <= i < j < |s| ==> s[i] < s[j]
  }

  /** The smallest tag that can still be passed on. */
  function Floor(p: Poller): nat
  {
    if p.inFlight.Some? then p.issued else p.issued + 1
  }

  /** Replies reach the subscriber in the order their requests were issued,
      each generation at most once, and none older than the request in
      flight at the start. */
  lemma {:induction false} RunDeliversInIssueOrder(p: Poller, events: seq<PollEvent>)
    requires Valid(p)
    ensures StrictlyIncreasing(Run(p, events).1)
    ensures forall t :: t in Run(p, events).1 ==> Floor(p) <= t <= Run(p, events).0.issued
    ensures Run(p, events).0.issued >= p.issued
    decreases |events|
  {
    if events != [] {
      var (p1, out) := Step(p, events[0]);
      RunDeliversInIssueOrder(p1, events[1..]);
      var (p2, rest) := Run(p1, events[1..]);
      assert Floor(p1) >= Floor(p);
      if out.Some? {
        assert out.value == p.issued == Floor(p);
        assert Floor(p1) == p.issued + 1;
        var all := [out.value] + rest;
        assert Run(p, events).1 == all;
        forall i, j | 0 <= i < j < |all| ensures all[i] < all[j] {
          if i > 0 {
            assert all[i] == rest[i - 1] && all[j] == rest[j - 1];
          } else {
            assert all[j] == rest[j - 1] && all[j] in rest;
          }
        }
      } else {
        assert Run(p, events).1 == rest;
      }
    }
  }

  /** A request superseded by a later tick is never passed on, whatever
      happens afterwards. */
  lemma SupersededNeverDelivered(p: Poller, events: seq<PollEvent>, tag: nat)
    requires Valid(p) && tag < p.issued
    ensures tag !in Run(p, events).1
  {
    RunDeliversInIssueOrder(p, events);
  }

  /** Once unsubscribed, nothing is passed on and nothing restarts the timer. */
  lemma {:induction false} NothingAfterDestroy(p: Poller, events: seq<PollEvent>)
    requires Valid(p) && !p.active
    ensures Run(p, events).1 == [] && !Run(p, events).0.active
    decreases |events|
  {
    if events != [] {
      NothingAfterDestroy(Step(p, events[0]).0, events[1..]);
    }
  }

  /** An accepted error reply ends polling: no later tick issues a request. */
  lemma ErrorEndsPolling(p: Poller, tag: nat)
    requires Valid(p) && Accepts(p, tag)
    ensures !Settle(p, tag, false).active
    ensures Tick(Settle(p, tag, false)) == Settle(p, tag, false)
  {
  }
}

=== FILE: qa_interface.dfy ===
/** The question form (`QaInterfaceComponent`): the blank check, the
    placeholder answer while the request is out, and the reply. */
module QaInterface {
  import opened Common
  import JsText

  const Thinking := "Thinking..."
  const EnterQuestion := "Please enter a question."
  const AnswerFailed := "Failed to get answer."

  datatype Form = Form(question: string, answer: Option<string>, errorMessage: Option<string>)

  /** `askQuestion` before the reply. Message and answer are cleared first; a
      question that `trim()`s to nothing sets the prompt and sends nothing;
      any other question shows the placeholder and is sent verbatim. */
  function Ask(f: Form): (r: (Form, Option<string>))
    ensures r.0.question == f.question
    ensures r.1.Some? <==> !JsText.AllWhitespace(f.question)
    ensures r.1.Some? ==> r.1.value == f.question && r.0.answer == Some(Thinking) && r.0.errorMessage.None?
    ensures r.1.None? ==> r.0.answer.None? && r.0.errorMessage == Some(EnterQuestion)
  {
    var cleared := f.(errorMessage := None, answer := None);
    if !JsText.IsBlank(f.question) then (cleared.(answer := Some(Thinking)), Some(f.question))
    else (cleared.(errorMessage := Some(EnterQuestion)), None)
  }

  /** The empty question and one of spaces, tabs and line breaks are both
      refused. */
  lemma BlankQuestionsRefused(f: Form)
    requires forall i :: 0 <= i < |f.question| ==> f.question[i] in {' ', '\t', '\n', '\r'}
    ensures Ask(f).1.None? && Ask(f).0.errorMessage == Some(EnterQuestion)
  {
  }

  /** The reply settles: success shows the answer; failure sets the message
      and clears the answer. */
  function OnAnswer(f: Form, reply: Response<string>): (r: Form)
    ensures r.question == f.question
    ensures reply.Success? ==> r.answer == Some(reply.value) && r.errorMessage == f.errorMessage
    ensures reply.Failure? ==> r.answer.None? && r.errorMessage == Some(AnswerFailed)
  {
    match reply
    case Success(a) => f.(answer := Some(a))
    case Failure(_) => f.(errorMessage := Some(AnswerFailed), answer := None)
  }

  /** A question that is sent ends with either its answer and no message, or
      no answer and the failure message. */
  lemma AskedQuestionOutcome(f: Form, reply: Response<string>)
    requires Ask(f).1.Some?
    ensures var r := OnAnswer(Ask(f).0, reply);
            (r.answer.Some? && r.errorMessage.None?) || (r.answer.None? && r.errorMessage == Some(AnswerFailed))
  {
  }
}

=== FILE: routes.dfy ===
/** The application's route table as data, Angular's first-match lookup and
    guard combination over it, and the access matrix that results. */
module Routes {
  import opened Common
  import Guards

  datatype GuardKind = AuthGuard | RoleGuard

  /** A route: a full-match redirect, or a lazily loaded screen with its
      `canActivate` list and its `data.roles`. */
  datatype Route =
    | RedirectRoute(path: string, redirectTo: string)
    | PageRoute(path: string, component: string, canActivate: seq<GuardKind>, roles: Option<seq<string>>)

  const Admin := "admin"
  const Editor := "editor"
  const Viewer := "viewer"

  const Table: seq<Route> := [
    RedirectRoute("", "/login"),
    PageRoute("login", "LoginComponent", [], None),
    PageRoute("signup", "SignupComponent", [], None),
    PageRoute("documents", "DocumentListComponent", [AuthGuard, RoleGuard], Some([Admin, Editor, Viewer])),
    PageRoute("upload", "DocumentUploadComponent", [AuthGuard, RoleGuard], Some([Admin, Editor])),
    PageRoute("users", "UserManagementComponent", [AuthGuard, RoleGuard], Some([Admin])),
    PageRoute("qa", "QaInterfaceComponent", [AuthGuard, RoleGuard], Some([Admin, Editor, Viewer])),
    PageRoute("ingestion-status", "IngestionStatusComponent", [AuthGuard, RoleGuard], Some([Admin, Editor]))
  ]

  /** `routes[k]` is the first route with path `path`. */
  predicate FirstWithPath(routes: seq<Route>, path: string, k: int)
  {
    && 0 <= k < |routes| && routes[k].path == path
    && forall j :: 0 <= j < k ==> routes[j].path != path
  }

  /** The table declares each path once, so every route is reached by its
      own path; the empty path is the redirect, and exactly the login and
      signup screens carry no guards. */
  lemma TablePathsDistinct()
    ensures forall i, j :: 0 <= i < j < |Table| ==> Table[i].path != Table[j].path
    ensures forall k :: 0 <= k < |Table| ==> FirstWithPath(Table, Table[k].path, k)
    ensures forall k :: 0 <= k < |Table| ==> (Table[k].RedirectRoute? <==> Table[k].path == "")
    ensures forall k :: 0 <= k < |Table| && Table[k].PageRoute? ==>
              (Table[k].canActivate == [] <==> Table[k].path == "login" || Table[k].path == "signup")
  {
  }

  /** The first route whose path is `path`. */
  function Lookup(routes: seq<Route>, path: string): (r: Option<Route>)
    ensures r.None? <==> forall i :: 0 <= i < |routes| ==> routes[i].path != path
    ensures r.Some? ==> r.value.path == path
    ensures r.Some? ==> exists i :: FirstWithPath(routes, path, i) && routes[i] == r.value
  {
    if routes == [] then None
    else if routes[0].path == path then Some(routes[0])
    else Lookup(routes[1..], path)
  }

  /** Angular's prioritised guard result: the first guard, in `canActivate`
      order, that does not return `true` decides; all `true` lets through. */
  function CombineGuards(results: seq<Guards.GuardResult>): (r: Guards.GuardResult)
    ensures r == Guards.Verdict(true) <==> forall i :: 0 <= i < |results| ==> results[i] == Guards.Verdict(true)
    ensures r != Guards.Verdict(true) ==> exists k :: DecidesFirst(results, k) && r == results[k]
  {
    if results == [] then Guards.Verdict(true)
    else if results[0] != Guards.Verdict(true) then results[0]
    else CombineGuards(results[1..])
  }

  /** The guard at index `k` is the first in the list not to return `true`. */
  predicate DecidesFirst(results: seq<Guards.GuardResult>, k: int)
  {
    && 0 <= k < |results| && results[k] != Guards.Verdict(true)
    && forall j :: 0 <= j < k ==> results[j] == Guards.Verdict(true)
  }

  /** The outcome of a navigation request. */
  datatype Navigation = Activated(component: string) | Redirected(commands: seq<string>) | Cancelled | Unmatched

  /** What the router does with a combined guard result for a screen. */
  function Decide(component: string, g: Guards.GuardResult): Navigation
  {
    match g
    case Verdict(true) => Activated(component)
    case Verdict(false) => Cancelled
    case RedirectTo(commands) => Redirected(commands)
  }

  /** One guard's value: `authGuard` is not part of this model and enters as
      the value it returned; `roleGuard` reads the route's `data.roles`. */
  function GuardValue(kind: GuardKind, authResult: Guards.GuardResult, role: Option<string>, roles: Option<seq<string>>): Guards.GuardResult
  {
    match kind
    case AuthGuard => authResult
    case RoleGuard => Guards.RoleGuard(role, match roles case Some(rs) => rs case None => [])
  }

  /** Entering a matched route: the redirect target, or the combined guard
      verdict on the screen. */
  function Enter(route: Route, authResult: Guards.GuardResult, role: Option<string>): (r: Navigation)
    ensures r != Unmatched
    ensures route.RedirectRoute? ==> r == Redirected([route.redirectTo])
    ensures route.PageRoute? ==>
              (r == Activated(route.component) <==>
               forall i :: 0 <= i < |route.canActivate| ==>
                 GuardValue(route.canActivate[i], authResult, role, route.roles) == Guards.Verdict(true))
    ensures route.PageRoute? && r != Activated(route.component) ==>
              var results := GuardValues(route.canActivate, authResult, role, route.roles);
              exists k :: DecidesFirst(results, k) && r == Decide(route.component, results[k])
  {
    match route
    case RedirectRoute(_, target) => Redirected([target])
    case PageRoute(_, component, guards, roles) =>
      Decide(component, CombineGuards(GuardValues(guards, authResult, role, roles)))
  }

  /** The value of every guard in a `canActivate` list, in order. */
  function GuardValues(guards: seq<GuardKind>, authResult: Guards.GuardResult, role: Option<string>,
                       roles: Option<seq<string>>): (r: seq<Guards.GuardResult>)
    ensures |r| == |guards|
    ensures forall i :: 0 <= i < |guards| ==> r[i] == GuardValue(guards[i], authResult, role, roles)
  {
    seq(|guards|, i requires 0 <= i < |guards| => GuardValue(guards[i], authResult, role, roles))
  }

  /** Navigating to `path` with the current role `role`: no screen when no
      route has the path, otherwise the first route with it is entered. */
  function Navigate(path: string, authResult: Guards.GuardResult, role: Option<string>): (r: Navigation)
    ensures r == Unmatched ==> forall i :: 0 <= i < |Table| ==> Table[i].path != path
    ensures (forall i :: 0 <= i < |Table| ==> Table[i].path != path) ==> r == Unmatched
    ensures forall k :: FirstWithPath(Table, path, k) ==> r == Enter(Table[k], authResult, role)
  {
    match Lookup(Table, path)
    case None => Unmatched
    case Some(route) => Enter(route, authResult, role)
  }

  /** A screen behind `[authGuard, roleGuard]`: a refusing `authGuard`
      decides; otherwise the role guard does. */
  lemma EnterGuardedScreen(path: string, component: string, roles: seq<string>,
                           authResult: Guards.GuardResult, role: Option<string>)
    ensures Enter(PageRoute(path, component, [AuthGuard, RoleGuard], Some(roles)), authResult, role) ==
            if authResult == Guards.Verdict(true) then
              (if Guards.RoleAdmitted(role, roles) then Activated(component) else Redirected(["/login"]))
            else if authResult == Guards.Verdict(false) then Cancelled
            else Redirected(authResult.commands)
  {
    var results := GuardValues([AuthGuard, RoleGuard], authResult, role, Some(roles));
    var g := Guards.RoleGuard(role, roles);
    assert results == [authResult, g];
    assert results[1..] == [g];
    assert CombineGuards([g]) == g by {
      assert [g][1..] == [];
    }
  }

  /** A screen with no guards always opens. */
  lemma EnterOpenScreen(path: string, component: string, authResult: Guards.GuardResult, role: Option<string>)
    ensures Enter(PageRoute(path, component, [], None), authResult, role) == Activated(component)
  {
  }

  /** The first route with a given path is found at its own index. */
  lemma {:induction false} LookupFindsFirst(routes: seq<Route>, path: string, k: nat)
    requires FirstWithPath(routes, path, k)
    ensures Lookup(routes, path) == Some(routes[k])
  {
    if k > 0 {
      LookupFindsFirst(routes[1..], path, k - 1);
    }
  }

  /** Navigating to the path of the `k`-th route enters that route when no
      earlier route has the same path. */
  lemma NavigateAt(k: nat, authResult: Guards.GuardResult, role: Option<string>)
    requires k < |Table| && FirstWithPath(Table, Table[k].path, k)
    ensures Navigate(Table[k].path, authResult, role) == Enter(Table[k], authResult, role)
  {
    LookupFindsFirst(Table, Table[k].path, k);
  }

  /** Navigation to a screen with authentication passed. */
  predicate Reaches(path: string, role: string)
  {
    Navigate(path, Guards.Verdict(true), Some(role)).Activated?
  }

  lemma EmptyPathRedirectsToLogin(authResult: Guards.GuardResult, role: Option<string>)
    ensures Navigate("", authResult, role) == Redirected(["/login"])
  {
  }

  /** The login and signup screens open for everybody. */
  lemma LoginAndSignupUnguarded(authResult: Guards.GuardResult, role: Option<string>)
    ensures Navigate("login", authResult, role) == Activated("LoginComponent")
    ensures Navigate("signup", authResult, role) == Activated("SignupComponent")
  {
    NavigateAt(1, authResult, role);
    NavigateAt(2, authResult, role);
  }

  /** Every other screen is behind both guards, authentication first, and
      declares its roles. */
  lemma OtherScreensCarryBothGuards()
    ensures forall r :: r in Table && r.PageRoute? && r.path != "login" && r.path != "signup" ==>
              r.canActivate == [AuthGuard, RoleGuard] && r.roles.Some?
  {
  }

  /** The set of guarded paths and the roles each admits. */
  function GuardedScreen(path: string): (r: Option<(nat, seq<string>)>)
  {
    if path == "documents" then Some((3, [Admin, Editor, Viewer]))
    else if path == "upload" then Some((4, [Admin, Editor]))
    else if path == "users" then Some((5, [Admin]))
    else if path == "qa" then Some((6, [Admin, Editor, Viewer]))
    else if path == "ingestion-status" then Some((7, [Admin, Editor]))
    else None
  }

  /** Navigating to a guarded screen: a refusing `authGuard` answers for the
      navigation whatever the role; once it passes, the screen opens exactly
      for its listed roles and every refusal is the redirect to `/login`. */
  lemma GuardedNavigation(path: string, authResult: Guards.GuardResult, role: Option<string>)
    requires GuardedScreen(path).Some?
    ensures var roles := GuardedScreen(path).value.1;
            Navigate(path, authResult, role) ==
              if authResult == Guards.Verdict(true) then
                (if Guards.RoleAdmitted(role, roles) then Activated(Table[GuardedScreen(path).value.0].component)
                 else Redirected(["/login"]))
              else if authResult == Guards.Verdict(false) then Cancelled
              else Redirected(authResult.commands)
  {
    var (k, roles) := GuardedScreen(path).value;
    NavigateAt(k, authResult, role);
    EnterGuardedScreen(path, Table[k].component, roles, authResult, role);
  }

  /** User management is for administrators only. */
  lemma UsersAdminOnly(role: string)
    ensures Reaches("users", role) <==> role == Admin
  {
    GuardedNavigation("users", Guards.Verdict(true), Some(role));
  }

  /** Upload and the ingestion dashboard admit administrators and editors. */
  lemma UploadAndIngestionAdminOrEditor(role: string)
    ensures Reaches("upload", role) <==> role == Admin || role == Editor
    ensures Reaches("ingestion-status", role) <==> role == Admin || role == Editor
  {
    GuardedNavigation("upload", Guards.Verdict(true), Some(role));
    GuardedNavigation("ingestion-status", Guards.Verdict(true), Some(role));
  }

  /** The document list and the question screen admit all three roles. */
  lemma DocumentsAndQaAnyRole(role: string)
    ensures Reaches("documents", role) <==> role == Admin || role == Editor || role == Viewer
    ensures Reaches("qa", role) <==> role == Admin || role == Editor || role == Viewer
  {
    GuardedNavigation("documents", Guards.Verdict(true), Some(role));
    GuardedNavigation("qa", Guards.Verdict(true), Some(role));
  }

  /** Without a current user no guarded screen opens, even when the token
      check passes. */
  lemma NoUserNoScreen(path: string)
    requires GuardedScreen(path).Some?
    ensures Navigate(path, Guards.Verdict(true), None) == Redirected(["/login"])
  {
    GuardedNavigation(path, Guards.Verdict(true), None);
  }
}

=== FILE: scenarios.dfy ===
/** Whole-application runs: the authentication service, the login form and
    the router composed. `authGuard` is a parameter throughout: the failing
    profile fetch is shown for every value it can return, the other scenarios
    take it as passing, which is the most the role guard can be helped. */
module Scenarios {
  import opened Common
  import Session
  import Guards
  import Routes
  import LoginForm

  const Pass := Guards.Verdict(true)

  /** The token arrives but the profile fetch fails: the login form still
      navigates to `/documents`, and that navigation never opens the screen,
      whatever `authGuard` answers, because no user (and so no role) is
      current; when `authGuard` lets it through, the role guard turns it back
      to `/login`. */
  lemma LoginWithFailingProfileFetch(s: Session.Session, f: LoginForm.Form, resp: Session.TokenResponse, err: HttpError)
    requires Session.HasAccessToken(resp)
    ensures var (s1, outcome) := Session.Login(s, Success(resp), Failure(err));
            && LoginForm.OnLoginResult(f, outcome).1 == Some(["/documents"])
            && (forall authResult :: !Routes.Navigate("documents", authResult, Session.CurrentRole(s1)).Activated?)
            && Routes.Navigate("documents", Pass, Session.CurrentRole(s1)) == Routes.Redirected(["/login"])
  {
    Session.LoginSucceedsButLoggedOut(s, resp, err);
    forall authResult: Guards.GuardResult
      ensures !Routes.Navigate("documents", authResult, None).Activated?
    {
      Routes.GuardedNavigation("documents", authResult, None);
    }
    Routes.NoUserNoScreen("documents");
  }

  /** An editor logs in and reaches the upload screen; after logout the same
      navigation is refused. */
  lemma EditorUploadsUntilLogout(token: string, u: User)
    requires token != "" && u.role == Routes.Editor
    ensures var (s1, outcome) := Session.Login(Session.Session(None, None), Success(Session.TokenResponse(Some(token))), Success(u));
            && outcome.LoginSucceeded?
            && Routes.Navigate("upload", Pass, Session.CurrentRole(s1)) == Routes.Activated("DocumentUploadComponent")
            && Routes.Navigate("upload", Pass, Session.CurrentRole(Session.Logout(s1))) == Routes.Redirected(["/login"])
  {
    var (s1, outcome) := Session.Login(Session.Session(None, None), Success(Session.TokenResponse(Some(token))), Success(u));
    assert Session.CurrentRole(s1) == Some(u.role) && Session.CurrentRole(Session.Logout(s1)) == None;
    assert Routes.Navigate("upload", Pass, Some(u.role)) == Routes.Activated("DocumentUploadComponent") by {
      Routes.GuardedNavigation("upload", Pass, Some(u.role));
    }
    assert Routes.Navigate("upload", Pass, None) == Routes.Redirected(["/login"]) by {
      Routes.NoUserNoScreen("upload");
    }
  }

  /** A viewer who logs in successfully is still kept out of user
      management. */
  lemma ViewerKeptFromUserManagement(token: string, u: User)
    requires token != "" && u.role == Routes.Viewer
    ensures var (s1, _) := Session.Login(Session.Session(None, None), Success(Session.TokenResponse(Some(token))), Success(u));
            Routes.Navigate("users", Pass, Session.CurrentRole(s1)) == Routes.Redirected(["/login"])
  {
    Routes.GuardedNavigation("users", Pass, Some(u.role));
  }
}

=== FILE: seqs.dfy ===
/** `Array.prototype.filter` over immutable sequences, as both list screens
    use it to drop a deleted record. */
module Seqs {

  /** The elements of `xs` that satisfy `keep`, in their original order. */
  function Filter<T(!new)>(xs: seq<T>, keep: T -> bool): (r: seq<T>)
    ensures |r| <= |xs|
    ensures forall i :: 0 <= i < |r| ==> r[i] in xs && keep(r[i])
    ensures forall i :: 0 <= i < |xs| && keep(xs[i]) ==> xs[i] in r
    ensures forall x :: multiset(r)[x] == if keep(x) then multiset(xs)[x] else 0
  {
    if xs == [] then []
    else
      assert xs == [xs[0]] + xs[1..];
      if keep(xs[0]) then [xs[0]] + Filter(xs[1..], keep)
      else Filter(xs[1..], keep)
  }

  /** Filtering a concatenation filters each part, so the survivors keep
      their relative order. */
  lemma {:induction false} FilterAppend<T(!new)>(a: seq<T>, b: seq<T>, keep: T -> bool)
    ensures Filter(a + b, keep) == Filter(a, keep) + Filter(b, keep)
  {
    if a == [] {
      assert a + b == b;
    } else {
      assert (a + b)[1..] == a[1..] + b;
      FilterAppend(a[1..], b, keep);
    }
  }

  /** Filtering twice by the same test changes nothing more. */
  lemma {:induction false} FilterIdempotent<T(!new)>(xs: seq<T>, keep: T -> bool)
    ensures Filter(Filter(xs, keep), keep) == Filter(xs, keep)
  {
    if xs != [] {
      FilterIdempotent(xs[1..], keep);
      if keep(xs[0]) {
        assert ([xs[0]] + Filter(xs[1..], keep))[1..] == Filter(xs[1..], keep);
      }
    }
  }

  /** Nothing is dropped when every element passes. */
  lemma {:induction false} FilterAllKept<T(!new)>(xs: seq<T>, keep: T -> bool)
    requires forall i :: 0 <= i < |xs| ==> keep(xs[i])
    ensures Filter(xs, keep) == xs
  {
    if xs != [] {
      FilterAllKept(xs[1..], keep);
      assert [xs[0]] + xs[1..] == xs;
    }
  }
}

=== FILE: session.dfy ===
/** The authentication service (`AuthService`) as a state machine over the
    stored access token and the current user, with the asynchronous
    completions of its two HTTP calls (`POST /token`, `GET /users/me/`) as
    explicit events. */
module Session {
  import opened Common

  /** The reply body of `POST /token`; `accessToken` is `response.access_token`.
      A `null` body takes the same branch as a body without a token. */
  datatype TokenResponse = TokenResponse(accessToken: Option<string>)

  /** The `access_token` slot of local storage and the value held by the
      current-user subject. */
  datatype Session = Session(token: Option<string>, user: Option<User>)

  /** `!!localStorage.getItem('access_token')`: a stored empty string is falsy. */
  function IsAuthenticated(s: Session): (b: bool)
    ensures b <==> s.token.Some? && s.token.value != ""
  {
    Truthy(StoredValue(s))
  }

  /** The stored token read as a JavaScript value: `getItem` gives `null`
      for a missing key. */
  function StoredValue(s: Session): JsValue
  {
    match s.token
    case None => JsNull
    case Some(t) => JsString(t)
  }

  /** Every user the service holds came with a live token. */
  predicate Consistent(s: Session)
  {
    s.user.Some? ==> IsAuthenticated(s)
  }

  /** `getCurrentUserRole`: the role of the current user, `null` without one. */
  function CurrentRole(s: Session): (r: Option<string>)
    ensures r.Some? <==> s.user.Some?
    ensures r.Some? ==> r.value == s.user.value.role
  {
    match s.user
    case None => None
    case Some(u) => Some(u.role)
  }

  /** The `Authorization` header of every authenticated call: the template
      `Bearer ${token}` renders a missing token as `null`. */
  function AuthHeader(s: Session): (h: string)
    ensures |h| >= 7 && h[..7] == "Bearer "
    ensures s.token.Some? ==> h[7..] == s.token.value
    ensures s.token.None? ==> h[7..] == "null"
  {
    "Bearer " + match s.token case Some(t) => t case None => "null"
  }

  /** `logout`: removes the token and clears the current user. */
  function Logout(s: Session): (r: Session)
    ensures !IsAuthenticated(r) && r.user.None? && CurrentRole(r).None?
    ensures r.token.None?
  {
    Session(None, None)
  }

  lemma LogoutIdempotent(s: Session)
    ensures Logout(Logout(s)) == Logout(s)
    ensures Consistent(Logout(s))
  {
  }

  // ---------------------------------------------------------------- init

  /** Service construction (`loadCurrentUser`): the stored token is kept, the
      subject starts at `null`, and the second component says whether a
      `GET /users/me/` is issued. */
  function Init(stored: Option<string>): (r: (Session, bool))
    ensures r.0.token == stored && r.0.user.None?
    ensures r.1 <==> IsAuthenticated(r.0)
    ensures Consistent(r.0)
  {
    var s := Session(stored, None);
    (s, IsAuthenticated(s))
  }

  /** Completion of `fetchCurrentUser`: success replaces the current user and
      keeps the token; failure logs out. */
  function OnUserFetched(s: Session, reply: Response<User>): (r: Session)
    ensures reply.Success? ==> r.user == Some(reply.value) && r.token == s.token
    ensures reply.Failure? ==> r == Logout(s) && r.token.None? && r.user.None?
  {
    match reply
    case Success(u) => s.(user := Some(u))
    case Failure(_) => Logout(s)
  }

  /** A fetch issued while the token is still present keeps the service
      consistent. */
  lemma UserFetchedKeepsConsistent(s: Session, reply: Response<User>)
    requires IsAuthenticated(s)
    ensures Consistent(OnUserFetched(s, reply))
  {
  }

  /** Nothing cancels an in-flight user fetch: when `logout` runs while it is
      pending, its late success still installs a user, with no token stored. */
  lemma StaleUserFetchAfterLogout(s: Session, u: User)
    ensures var r := OnUserFetched(Logout(s), Success(u));
            r.user == Some(u) && !IsAuthenticated(r) && !Consistent(r)
  {
  }

  // --------------------------------------------------------------- login

  /** What `login` emits: the original token reply, or the error it re-raises. */
  datatype LoginOutcome = LoginSucceeded(response: TokenResponse) | LoginFailed(error: HttpError)

  /** A login between the token reply and the user fetch, or finished. */
  datatype LoginProgress = AwaitingUser(response: TokenResponse) | Settled(outcome: LoginOutcome)

  /** `response && response.access_token` */
  predicate HasAccessToken(resp: TokenResponse)
  {
    resp.accessToken.Some? && resp.accessToken.value != ""
  }

  /** The plain `Error` thrown when the reply carries no token. */
  const TokenNotReceived: HttpError := HttpError(None, JsString("Access token not received"))

  /** First step of `login`: the token reply settles. With a token it is
      stored and the user fetch is issued (the current user is left as it
      was until that fetch settles); otherwise, and on a transport failure,
      the outer error handler clears token and user and login fails. */
  function OnTokenReply(s: Session, reply: Response<TokenResponse>): (r: (Session, LoginProgress))
    ensures reply.Success? && HasAccessToken(reply.value) ==>
              && r.0.token == reply.value.accessToken && r.0.user == s.user
              && r.1 == AwaitingUser(reply.value) && IsAuthenticated(r.0)
    ensures reply.Success? && !HasAccessToken(reply.value) ==>
              r == (Logout(s), Settled(LoginFailed(TokenNotReceived)))
    ensures reply.Failure? ==> r == (Logout(s), Settled(LoginFailed(reply.error)))
  {
    match reply
    case Failure(e) => (Logout(s), Settled(LoginFailed(e)))
    case Success(resp) =>
      if HasAccessToken(resp) then (s.(token := resp.accessToken), AwaitingUser(resp))
      else (Logout(s), Settled(LoginFailed(TokenNotReceived)))
  }

  /** Second step of `login`: the user fetch settles. Its own error handler
      logs out, and the inner handler then still emits the token reply, so
      login succeeds whatever the fetch returned. */
  function OnLoginUserFetched(s: Session, pending: TokenResponse, reply: Response<User>): (r: (Session, LoginOutcome))
    ensures r.1 == LoginSucceeded(pending)
    ensures r.0 == OnUserFetched(s, reply)
  {
    (OnUserFetched(s, reply), LoginSucceeded(pending))
  }

  /** The whole `login` pipeline once both replies are known; `userReply` is
      only consulted when the user fetch is issued. */
  function Login(s: Session, tokenReply: Response<TokenResponse>, userReply: Response<User>): (r: (Session, LoginOutcome))
    ensures tokenReply.Failure? ==> r == (Logout(s), LoginFailed(tokenReply.error))
    ensures tokenReply.Success? && !HasAccessToken(tokenReply.value) ==> r == (Logout(s), LoginFailed(TokenNotReceived))
    ensures tokenReply.Success? && HasAccessToken(tokenReply.value) ==>
              && r.1 == LoginSucceeded(tokenReply.value)
              && r.0 == OnUserFetched(s.(token := tokenReply.value.accessToken), userReply)
  {
    var (s1, progress) := OnTokenReply(s, tokenReply);
    match progress
    case Settled(outcome) => (s1, outcome)
    case AwaitingUser(resp) => OnLoginUserFetched(s1, resp, userReply)
  }

  /** Login emits success exactly when the token reply carried a token. */
  lemma LoginSucceedsIffToken(s: Session, tokenReply: Response<TokenResponse>, userReply: Response<User>)
    ensures Login(s, tokenReply, userReply).1.LoginSucceeded?
            <==> tokenReply.Success? && HasAccessToken(tokenReply.value)
    ensures Login(s, tokenReply, userReply).1.LoginSucceeded? ==>
              Login(s, tokenReply, userReply).1.response == tokenReply.value
  {
  }

  /** The session ends authenticated exactly when the token reply carried a
      token AND the user fetch succeeded; then the fetched user is current. */
  lemma LoginAuthenticatesIffBothSucceed(s: Session, tokenReply: Response<TokenResponse>, userReply: Response<User>)
    ensures IsAuthenticated(Login(s, tokenReply, userReply).0)
            <==> tokenReply.Success? && HasAccessToken(tokenReply.value) && userReply.Success?
    ensures IsAuthenticated(Login(s, tokenReply, userReply).0) ==>
              Login(s, tokenReply, userReply).0 == Session(tokenReply.value.accessToken, Some(userReply.value))
  {
  }

  /** The surprising case: the token arrives, the user fetch fails, and login
      still reports success while the service is logged out. */
  lemma LoginSucceedsButLoggedOut(s: Session, resp: TokenResponse, err: HttpError)
    requires HasAccessToken(resp)
    ensures Login(s, Success(resp), Failure(err)) == (Session(None, None), LoginSucceeded(resp))
  {
  }

  /** Every failed login leaves nothing behind: no token, no user. */
  lemma FailedLoginClearsSession(s: Session, tokenReply: Response<TokenResponse>, userReply: Response<User>)
    ensures Login(s, tokenReply, userReply).1.LoginFailed? ==>
              Login(s, tokenReply, userReply).0 == Session(None, None)
    ensures tokenReply.Failure? ==>
              Login(s, tokenReply, userReply).1 == LoginFailed(tokenReply.error)
  {
  }

  /** Login never leaves a user without a live token. */
  lemma LoginKeepsConsistent(s: Session, tokenReply: Response<TokenResponse>, userReply: Response<User>)
    ensures Consistent(Login(s, tokenReply, userReply).0)
  {
  }

  /** While the user fetch of a login is pending, the previous user (and so
      the previous role) is still current under the new token. */
  lemma PreviousUserVisibleDuringLogin(s: Session, resp: TokenResponse)
    requires HasAccessToken(resp)
    ensures CurrentRole(OnTokenReply(s, Success(resp)).0) == CurrentRole(s)
  {
  }
}

=== FILE: signup_form.dfy ===
/** The signup form (`SignupComponent`): the request it sends, where it goes
    on success, and which message it shows on failure. The message slot holds
    whatever value is assigned to it, so a non-string `detail` is kept as
    such. */
module SignupForm {
  import opened Common

  const Default := "Signup failed. Please try again."

  datatype Form = Form(username: string, email: string, password: string, errorMessage: JsValue)

  /** `signup()` before the reply: the message is cleared and exactly
      `(username, email, password)` is sent. */
  function Submit(f: Form): (r: (Form, (string, string, string)))
    ensures r.0 == f.(errorMessage := JsNull)
    ensures r.1 == (f.username, f.email, f.password)
  {
    (f.(errorMessage := JsNull), (f.username, f.email, f.password))
  }

  /** The message for a failed signup: the default, replaced verbatim by a
      truthy `error.error.detail`. */
  function ErrorMessage(e: HttpError): (m: JsValue)
    ensures e.body.Some? && Truthy(e.body.value.detail) ==> m == e.body.value.detail
    ensures !(e.body.Some? && Truthy(e.body.value.detail)) ==> m == JsString(Default)
    ensures Truthy(m)
  {
    if e.body.Some? && Truthy(e.body.value.detail) then e.body.value.detail else JsString(Default)
  }

  /** The signup settles: success navigates to `/login`; failure sets the
      message and stays. */
  function OnSignupResult(f: Form, reply: Response<JsValue>): (r: (Form, Option<seq<string>>))
    ensures reply.Success? ==> r == (f, Some(["/login"]))
    ensures reply.Failure? ==> r == (f.(errorMessage := ErrorMessage(reply.error)), None)
  {
    match reply
    case Success(_) => (f, Some(["/login"]))
    case Failure(e) => (f.(errorMessage := ErrorMessage(e)), None)
  }

  /** The default is shown exactly when the error carries no truthy detail,
      or a detail that is itself the default text; any other message shown
      is the server's detail, verbatim. */
  lemma DefaultShownIffNoTruthyDetail(e: HttpError)
    ensures ErrorMessage(e) == JsString(Default) <==>
              !(e.body.Some? && Truthy(e.body.value.detail)) || e.body.value.detail == JsString(Default)
    ensures ErrorMessage(e) != JsString(Default) ==> e.body.Some? && ErrorMessage(e) == e.body.value.detail
  {
  }

  /** An empty-string detail is falsy and leaves the default in place. */
  lemma EmptyDetailKeepsDefault(message: JsValue)
    ensures ErrorMessage(HttpError(Some(ErrorBody(JsString(""))), message)) == JsString(Default)
  {
  }
}

=== FILE: user_management.dfy ===
/** The user management screen (`UserManagementComponent`): the user list,
    the role selected for each user id, and the load / role-update / delete
    transitions. */
module UserManagement {
  import opened Common
  import Seqs

  const LoadFailed := "Failed to load users."
  const SelectRole := "Please select a role."
  const UpdateFailed := "Failed to update user role."
  const DeleteFailed := "Failed to delete user."

  /** The screen; `selectedRole` is the role picked in each user's selector. */
  datatype Screen = Screen(users: seq<User>, errorMessage: Option<string>, selectedRole: map<int, string>)

  const Opened: Screen := Screen([], None, map[])

  /** The role of the last user in `data` with id `id`. */
  function LastRole(data: seq<User>, id: int): (r: Option<string>)
    ensures r.None? <==> forall k :: 0 <= k < |data| ==> data[k].id != id
    ensures r.Some? ==> exists k :: 0 <= k < |data| && data[k].id == id && r.value == data[k].role &&
                                    forall j :: k < j < |data| ==> data[j].id != id
  {
    if data == [] then None
    else if data[|data| - 1].id == id then Some(data[|data| - 1].role)
    else
      var r := LastRole(data[..|data| - 1], id);
      LastMatchExtends(data, data[..|data| - 1], id, r);
      r
  }

  /** A last match in `init` is still the last match once a user with another
      id is appended. */
  lemma LastMatchExtends(data: seq<User>, init: seq<User>, id: int, r: Option<string>)
    requires |data| > 0 && init == data[..|data| - 1] && data[|data| - 1].id != id
    requires r.None? <==> forall k :: 0 <= k < |init| ==> init[k].id != id
    requires r.Some? ==> exists k :: 0 <= k < |init| && init[k].id == id && r.value == init[k].role &&
                                     forall j :: k < j < |init| ==> init[j].id != id
    ensures r.None? <==> forall k :: 0 <= k < |data| ==> data[k].id != id
    ensures r.Some? ==> exists k :: 0 <= k < |data| && data[k].id == id && r.value == data[k].role &&
                                    forall j :: k < j < |data| ==> data[j].id != id
  {
    assert forall k :: 0 <= k < |init| ==> init[k] == data[k];
  }

  /** `users.forEach(user => selectedRole[user.id] = user.role)`: assignments
      in list order, so the last user with an id decides its entry; entries
      for ids not in the list are kept. */
  function SeedRoles(selected: map<int, string>, data: seq<User>): (r: map<int, string>)
    ensures forall id :: id in r <==> id in selected || LastRole(data, id).Some?
    ensures forall id :: id in r ==> r[id] == (match LastRole(data, id) case Some(x) => x case None => selected[id])
  {
    if data == [] then selected
    else
      var last := data[|data| - 1];
      SeedRoles(selected, data[..|data| - 1])[last.id := last.role]
  }

  predicate DistinctIds(users: seq<User>)
  {
    forall i, j :: 0 <= i < j < |users| ==> users[i].id != users[j].id
  }

  /** With distinct ids the last user with an id is the only one. */
  lemma {:induction false} LastRoleOfDistinct(data: seq<User>, k: nat)
    requires DistinctIds(data) && k < |data|
    ensures LastRole(data, data[k].id) == Some(data[k].role)
  {
    if k < |data| - 1 {
      var prefix := data[..|data| - 1];
      assert prefix[k] == data[k];
      LastRoleOfDistinct(prefix, k);
    }
  }

  /** With distinct ids every loaded user's selector shows that user's role. */
  lemma SeedRolesOfDistinct(selected: map<int, string>, data: seq<User>)
    requires DistinctIds(data)
    ensures forall k :: 0 <= k < |data| ==>
              data[k].id in SeedRoles(selected, data) && SeedRoles(selected, data)[data[k].id] == data[k].role
  {
    forall k | 0 <= k < |data|
      ensures data[k].id in SeedRoles(selected, data) && SeedRoles(selected, data)[data[k].id] == data[k].role
    {
      LastRoleOfDistinct(data, k);
    }
  }

  /** `getUsers` settles: success replaces the list and seeds the selectors;
      failure only sets the message. */
  function OnUsersLoaded(s: Screen, reply: Response<seq<User>>): (r: Screen)
    ensures reply.Success? ==> r.users == reply.value && r.errorMessage == s.errorMessage
    ensures reply.Success? ==> forall id :: LastRole(reply.value, id).Some? ==>
              id in r.selectedRole && r.selectedRole[id] == LastRole(reply.value, id).value
    ensures reply.Success? ==> forall id :: LastRole(reply.value, id).None? ==>
              (id in r.selectedRole <==> id in s.selectedRole) &&
              (id in s.selectedRole ==> r.selectedRole[id] == s.selectedRole[id])
    ensures reply.Failure? ==>
              r.users == s.users && r.selectedRole == s.selectedRole && r.errorMessage == Some(LoadFailed)
  {
    match reply
    case Success(data) => s.(users := data, selectedRole := SeedRoles(s.selectedRole, data))
    case Failure(_) => s.(errorMessage := Some(LoadFailed))
  }

  /** `updateUserRole(userId)` before the reply: with no (or an empty)
      selected role the message is set and no request is issued; otherwise
      the request `(userId, role)` is issued and the screen is unchanged. */
  function RequestRoleUpdate(s: Screen, userId: int): (r: (Screen, Option<(int, string)>))
    ensures r.1.Some? <==> userId in s.selectedRole && s.selectedRole[userId] != ""
    ensures r.1.Some? ==> r.1.value == (userId, s.selectedRole[userId]) && r.0 == s
    ensures r.1.None? ==> r.0 == s.(errorMessage := Some(SelectRole))
  {
    if userId in s.selectedRole && s.selectedRole[userId] != "" then (s, Some((userId, s.selectedRole[userId])))
    else (s.(errorMessage := Some(SelectRole)), None)
  }

  /** On a freshly loaded screen, updating a listed user sends the role its
      selector was seeded with (when that role is not empty), and updating an
      id that was not loaded only asks for a role. */
  lemma LoadedScreenRequestsSeededRole(data: seq<User>, userId: int)
    requires DistinctIds(data)
    ensures var s := OnUsersLoaded(Opened, Success(data));
            forall k :: 0 <= k < |data| && data[k].id == userId && data[k].role != "" ==>
              RequestRoleUpdate(s, userId) == (s, Some((userId, data[k].role)))
    ensures var s := OnUsersLoaded(Opened, Success(data));
            (forall k :: 0 <= k < |data| ==> data[k].id != userId) ==>
              RequestRoleUpdate(s, userId) == (s.(errorMessage := Some(SelectRole)), None)
  {
    SeedRolesOfDistinct(Opened.selectedRole, data);
  }

  /** `users.findIndex(user => user.id === userId)` */
  function FindIndex(users: seq<User>, userId: int): (i: int)
    ensures -1 <= i < |users|
    ensures i == -1 <==> forall k :: 0 <= k < |users| ==> users[k].id != userId
    ensures 0 <= i ==> users[i].id == userId && forall k :: 0 <= k < i ==> users[k].id != userId
  {
    if users == [] then -1
    else if users[0].id == userId then 0
    else
      var j := FindIndex(users[1..], userId);
      if j == -1 then -1 else j + 1
  }

  /** The role-update reply: only the first user with that id takes the
      returned role; every other user, and every other field, is kept. */
  function SetFirstRole(users: seq<User>, userId: int, role: string): (r: seq<User>)
    ensures |r| == |users|
    ensures forall k :: 0 <= k < |users| && k != FindIndex(users, userId) ==> r[k] == users[k]
    ensures FindIndex(users, userId) >= 0 ==>
              r[FindIndex(users, userId)] == users[FindIndex(users, userId)].(role := role)
  {
    var i := FindIndex(users, userId);
    if i == -1 then users else users[i := users[i].(role := role)]
  }

  /** The role-update request settles: success writes the returned role into
      the first matching user; failure only sets the message. */
  function OnRoleUpdated(s: Screen, userId: int, reply: Response<User>): (r: Screen)
    ensures reply.Success? ==> r.users == SetFirstRole(s.users, userId, reply.value.role)
    ensures reply.Success? ==> r.errorMessage == s.errorMessage
    ensures reply.Failure? ==> r.users == s.users && r.errorMessage == Some(UpdateFailed)
    ensures r.selectedRole == s.selectedRole
  {
    match reply
    case Success(resp) => s.(users := SetFirstRole(s.users, userId, resp.role))
    case Failure(_) => s.(errorMessage := Some(UpdateFailed))
  }

  /** `users.filter(user => user.id !== userId)`: every other user stays,
      exactly as often as before. */
  function RemoveUser(users: seq<User>, userId: int): (r: seq<User>)
    ensures forall k :: 0 <= k < |r| ==> r[k].id != userId && r[k] in users
    ensures forall k :: 0 <= k < |users| && users[k].id != userId ==> users[k] in r
    ensures forall u :: multiset(r)[u] == if u.id != userId then multiset(users)[u] else 0
  {
    Seqs.Filter(users, (u: User) => u.id != userId)
  }

  /** The delete request settles: success drops the user; failure keeps the
      list and sets the message. */
  function OnUserDeleted(s: Screen, userId: int, reply: Response<()>): (r: Screen)
    ensures reply.Success? ==> r.users == RemoveUser(s.users, userId) && r.errorMessage == s.errorMessage
    ensures reply.Failure? ==> r.users == s.users && r.errorMessage == Some(DeleteFailed)
    ensures r.selectedRole == s.selectedRole
  {
    match reply
    case Success(_) => s.(users := RemoveUser(s.users, userId))
    case Failure(_) => s.(errorMessage := Some(DeleteFailed))
  }

  /** Deleting keeps the other users in their order. */
  lemma RemoveUserKeepsOrder(a: seq<User>, b: seq<User>, userId: int)
    ensures RemoveUser(a + b, userId) == RemoveUser(a, userId) + RemoveUser(b, userId)
  {
    Seqs.FilterAppend(a, b, (u: User) => u.id != userId);
  }

  /** Deleting an id no user has changes nothing. */
  lemma RemoveUserAbsentIsIdentity(users: seq<User>, userId: int)
    requires forall k :: 0 <= k < |users| ==> users[k].id != userId
    ensures RemoveUser(users, userId) == users
  {
    Seqs.FilterAllKept(users, (u: User) => u.id != userId);
  }
}
